=== FILE: README.md ===
# TreeOS control panel, modelled in Dafny

This project models the logic of `treeos-control.py`, the GTK control panel of
the TreeOS desktop (a Fedora Silverblue derivative). It covers three parts of
that program and proves what each of them promises:

* **The configuration store** (`config.dfy`, module `ConfigStore`):
  - `DEFAULT_CONFIG` and the reader `read_config`. The reader starts from the
    defaults and applies the file's lines in order.
  - The writer `write_config`, which works in one of two ways:
    - it creates a missing or empty file with six lines;
    - otherwise it rewrites every `KEY=` line in place, running one
      `sed -i 's|^KEY=.*|KEY=val|'` per supplied field.
  - The file is a class, `ConfigFile`, with a presence flag and a sequence of
    lines. Each `sed` is a map over the lines.
  - The proofs are round trips: writing and then reading puts the supplied
    values in place and leaves everything else as it was. The frame
    properties of the `sed` rewrite are also proved.
* **The manual update** (`updates.dfy`, module `UpdateOrchestrator`):
  - `on_actualizar_sistema` takes the lock file. `procesar_actualizacion` runs
    `rpm-ostree upgrade` and then the rebase check `check_silverblue_version_py`,
    and releases the lock in every case.
  - The rebase check compares the stripped `latest-release` text with
    `STORED_VERSION`. It runs `rpm-ostree rebase <latest>` only when the two
    differ.
  - It records the new version only when the rebase exits with 0.
* **The secure-applications page** (`toolbox.dfy`, module `Toolbox`):
  - The catalogue `APPS_DESKTOP` and the `.desktop` entry that
    `crear_desktop_app` writes.
  - `ensure_toolbox_exists`, which checks for the `treeossecure` container
    and, when it is missing, pulls the image and creates it.
  - The installation worker `instalar_app_background`.

External commands are an oracle (`runner.dfy`, module `CommandRunner`):

* A `Shell` records every command issued, in order.
* The `n`-th command issued gets the outcome `respond(command, n)`: its raw
  output lines and its exit code.
* The shell also keeps the log of lines handed to the panel's callback. This
  log is the details view of the page the operation runs on.
* `ejecutar_comando_captura` becomes `Shell.Capture`. Its loop hands each
  line, stripped on the right, to the callback until the first empty read.

`text.dfy` (module `Text`) restates the Python string operations the program
uses: `strip`, `rstrip`, `lower`, `in`, `str(int)`, `int(str)` and the split
point of `split("=", 1)` (`Text.IndexOf`). `int` and `str` follow Python 3.11
and later, which refuse to convert numbers of more than 4300 decimal digits.
`Text.Split`, a split at every separator, is used only in lemmas, to read back
the `sed` expression and the `.desktop` entry. `wrappers.dfy` holds an
`Option` type.

The `.desktop` entry is not conditional on a successful installation: the
code (`treeos-control/treeos-control.py:648-655`) writes it whatever the
installation's exit code, and `Toolbox.InstallAppBackground` runs the
desktop-entry command in every case too.

The messages in the source file carry replacement characters (U+FFFD) where
Spanish accented letters were. The model writes the intended letters
(`actualización`, `versión`, …).

## Model

| member | source | states |
|---|---|---|
| Text.RStrip | treeos-control/treeos-control.py:127 | `rstrip` returns a prefix of its input |
| Text.RStripSpaces | treeos-control/treeos-control.py:127 | what `rstrip` keeps does not end in whitespace, and everything it removes is whitespace |
| Text.Strip | treeos-control/treeos-control.py:71 | what `strip` returns neither starts nor ends with whitespace |
| Text.StripRemovesOnlySpace | treeos-control/treeos-control.py:71 | `strip` returns a contiguous slice of its input, and every character it removes, before or after that slice, is whitespace |
| Text.Lower | treeos-control/treeos-control.py:77 | `lower` keeps the length, turns every ASCII capital into a small letter and changes nothing else |
| Text.IndexOf | treeos-control/treeos-control.py:74 | the index of the first occurrence of the character (the split point of `split("=", 1)`), or the length when it does not occur |
| Text.ContainsAt | treeos-control/treeos-control.py:182 | the substring test holds exactly when the pattern starts at some position of the text |
| Text.IntToString | treeos-control/treeos-control.py:113 | `str(n)` is non-empty, starts with a minus sign or a digit and ends with a digit |
| Text.ParseInt | treeos-control/treeos-control.py:79 | `int` accepts only text ending in a digit, and refuses a numeral of more than 4300 digits (the `ValueError` case) |
| Text.IntRoundTrip | treeos-control/treeos-control.py:79 | `int(str(n)) == n` for every integer of at most 4300 digits (the integers `str` converts), so the integer the writer writes reads back |
| ConfigStore.DefaultsReadBack | treeos-control/treeos-control.py:29-36 | `DEFAULT_CONFIG` survives its own file format: the six lines the writer creates without arguments read back as the defaults |
| ConfigStore.KeyOf | treeos-control/treeos-control.py:76-81 | the known key a name spells, which spells that name back |
| ConfigStore.SetGet | treeos-control/treeos-control.py:77-81 | `config[key] = v` changes what that key reads as, to `v`, and no other key |
| ConfigStore.Interpret | treeos-control/treeos-control.py:76-83 | the three boolean keys, `LAST_UPDATE_CHECK` and every other key get a value of their type; a line is skipped exactly when `LAST_UPDATE_CHECK` is not an integer |
| ConfigStore.ConfigOf | treeos-control/treeos-control.py:66-86 | a missing or empty file reads as `DEFAULT_CONFIG` |
| ConfigStore.ApplyLinesAt | treeos-control/treeos-control.py:70-83 | after the reader's loop each key reads as the value of the last line that sets it, or as before when no line does: later lines override earlier ones, skipped lines count for nothing |
| ConfigStore.ParseLine | treeos-control/treeos-control.py:71-75 | a line is split exactly when its stripped text contains `=`, and the key part holds no `=` |
| ConfigStore.ParseLineSplitsAtFirst | treeos-control/treeos-control.py:71-75 | the stripped line is the key text, `=`, then the value text, with no `=` in the key text, and the result is those two texts stripped: `split("=", 1)` followed by `strip` |
| ConfigStore.KeyedLineParses | treeos-control/treeos-control.py:71-75 | a line `KEY=text` parses as that key and the stripped text |
| ConfigStore.ReadLine | treeos-control/treeos-control.py:71-83 | one iteration of the reader's loop applies the line's setting (booleans by `lower() == "true"`, the integer by `int`, anything else as text) or skips it |
| ConfigStore.ConfigFile.Read | treeos-control/treeos-control.py:66-86 | `read_config` returns the defaults with the file's lines applied in order, or the defaults for a missing or empty file |
| ConfigStore.SedLine | treeos-control/treeos-control.py:90-91 | the `sed` keeps every line its pattern `^KEY=.*` does not match, and a matched line still begins with `KEY=` |
| ConfigStore.SedApply | treeos-control/treeos-control.py:90-91 | `sed -i` rewrites the file in place, line by line: the number of lines is kept |
| ConfigStore.SedIdempotent | treeos-control/treeos-control.py:90-91 | running the same `sed` twice gives the same file as running it once |
| ConfigStore.SedScriptFields | treeos-control/treeos-control.py:90-91 | with a safe value, the `sed` expression splits into exactly the command, the pattern `^KEY=.*` and the replacement `KEY=val` |
| ConfigStore.SedFrame | treeos-control/treeos-control.py:90-91 | one `sed` keeps the number of lines and every line that does not begin with `KEY=`, and keeps the file canonical |
| ConfigStore.SedKeepsLines | treeos-control/treeos-control.py:90-91 | one `sed` neither adds nor removes the line of any known key |
| ConfigStore.SedReadBack | treeos-control/treeos-control.py:90-91 | after one `sed` for a key that has a line, the file reads as before with that key set to the new value |
| ConfigStore.SedWithoutLine | treeos-control/treeos-control.py:104-115 | a `sed` for a key with no line leaves the file unchanged: the update is lost |
| ConfigStore.BoolTextReads | treeos-control/treeos-control.py:105 | `str(b).lower()` reads back as `b` under a boolean key |
| ConfigStore.IntTextReads | treeos-control/treeos-control.py:113 | for an integer of at most 4300 digits, `str(n)` reads back as `n` under `LAST_UPDATE_CHECK`, and contains no character the `sed` command treats specially |
| ConfigStore.StringTextReads | treeos-control/treeos-control.py:107 | a text value reads back as itself, stripped |
| ConfigStore.EditsReadable | treeos-control/treeos-control.py:104-115 | every field the writer writes reads back as a value, of booleans, the integer and text alike |
| ConfigStore.SuppliedKeysAre | treeos-control/treeos-control.py:104-115 | the writer touches exactly the keys whose argument is not `None` |
| ConfigStore.SedAllReads | treeos-control/treeos-control.py:104-115 | on a canonical file with a line for every edited key, the in-place rewrites read exactly as if the new lines had been appended, and the file stays canonical |
| ConfigStore.SedAllFrame | treeos-control/treeos-control.py:104-115 | the rewrites keep the number of lines, every line no edited key begins, and the set of keys that have a line |
| ConfigStore.ReadEdits | treeos-control/treeos-control.py:93-115 | reading the lines of the supplied arguments puts exactly those arguments in place, strings stripped |
| ConfigStore.UpdateThenRead | treeos-control/treeos-control.py:104-115 | update branch round trip: with safe values, reading after the update gives the previous configuration with the supplied arguments in place and every other key unchanged; the file stays canonical |
| ConfigStore.UpdateFrame | treeos-control/treeos-control.py:104-115 | the update branch keeps the number of lines and every line that does not begin with a supplied `KEY=` |
| ConfigStore.CreationLines | treeos-control/treeos-control.py:93-100 | the create branch writes six lines, one per key, in the source's order |
| ConfigStore.CreatedCanonical | treeos-control/treeos-control.py:93-100 | the created file is canonical and has a line for each of the six keys |
| ConfigStore.CreateThenRead | treeos-control/treeos-control.py:93-100 | create branch round trip: with safe values, the six created lines read as `DEFAULT_CONFIG` with the supplied arguments in place |
| ConfigStore.WriteThenRead | treeos-control/treeos-control.py:88-116 | `write_config` then `read_config` gives the configuration read before with the supplied arguments in place, and the file is canonical again; a file with a line for every key (a created one included) keeps one for every key, so this holds write after write |
| ConfigStore.WriteKeepsKeys | treeos-control/treeos-control.py:88-116 | whatever the values, once the file has a line for every key, or is created, every later write leaves a line for every key |
| ConfigStore.ConfigFile.RunSed | treeos-control/treeos-control.py:90-91 | one `sed_replace` command maps the file's lines through the line rewrite; the file stays present |
| ConfigStore.ConfigFile.RunSedIfGiven | treeos-control/treeos-control.py:104-115 | one `if value is not None: sed_replace(...)` step runs the `sed` exactly when the value is supplied |
| ConfigStore.ConfigFile.Write | treeos-control/treeos-control.py:88-116 | the file is present afterwards, and its lines are the six created lines for a missing or empty file, otherwise the old lines with one `sed` per supplied field in the source's order; a line for every key is kept as `WriteKeepsKeys` states |
| CommandRunner.Delivered | treeos-control/treeos-control.py:125-127 | at most one delivered line per line read, and none exactly when the first read is empty |
| CommandRunner.DeliveredLines | treeos-control/treeos-control.py:125-127 | the callback receives each line read before the first empty read, once, in order, stripped on the right, and nothing after it |
| CommandRunner.RStripNewline | treeos-control/treeos-control.py:127 | `rstrip` removes the newline `readline` leaves and nothing of the line itself |
| CommandRunner.DeliveredTerminated | treeos-control/treeos-control.py:125-127 | lines a process prints reach the callback exactly as printed; an empty printed line arrives as "" |
| CommandRunner.Shell.Capture | treeos-control/treeos-control.py:121-130 | `ejecutar_comando_captura` issues the command once, returns its exit code, and appends to the log the delivered lines when there is a callback and nothing otherwise |
| CommandRunner.Shell.Run | treeos-control/treeos-control.py:187 | `subprocess.run` issues the command once, returns its exit code and shows nothing in the panel |
| CommandRunner.Shell.Query | treeos-control/treeos-control.py:181 | `check_output` issues the command once and returns its outcome; nothing is shown |
| CommandRunner.Shell.Say | treeos-control/treeos-control.py:486-488 | the callback appends exactly one line to the details view |
| CommandRunner.Shell.Clear | treeos-control/treeos-control.py:495-497 | clearing empties the details view and issues nothing |
| UpdateOrchestrator.LatestVersion | treeos-control/treeos-control.py:136-140 | the release named is the stripped file text, and "" when the file is absent |
| UpdateOrchestrator.StoreVersion | treeos-control/treeos-control.py:148 | `write_config(stored_version=latest)` supplies `STORED_VERSION` and nothing else |
| UpdateOrchestrator.RebaseCommands | treeos-control/treeos-control.py:143-145 | at most one command; a rebase is issued exactly when the release is non-empty and differs from the recorded version, and that command is `rpm-ostree rebase <release>` |
| UpdateOrchestrator.CreatedWithVersionIsCreation | treeos-control/treeos-control.py:93-100 | recording a version in a missing or empty file creates the six default lines with that version |
| UpdateOrchestrator.RecordIsWrite | treeos-control/treeos-control.py:148 | recording a version is the general writer with only `STORED_VERSION` supplied |
| UpdateOrchestrator.RerunAfterSuccessIsNoOp | treeos-control/treeos-control.py:143-148 | once a successful rebase is recorded, the configuration reads the new version back, so a rerun with the same release rebases nothing |
| UpdateOrchestrator.LostStoredVersion | treeos-control/treeos-control.py:114-115 | a non-empty file without a `STORED_VERSION` line is left as it was, so the stored version read back is unchanged and every later run rebases again |
| UpdateOrchestrator.RecordVersion | treeos-control/treeos-control.py:148 | the configuration file afterwards holds the recorded lines for the new version |
| UpdateOrchestrator.CheckSilverblueVersion | treeos-control/treeos-control.py:135-152 | an unreadable release file raises before anything runs; otherwise the rebase is issued only when needed, the report is the announcement, the rebase output and the success or failure line (or "no new versions"), and `STORED_VERSION` changes only when the rebase exits with 0 |
| UpdateOrchestrator.RebaseIfNewer | treeos-control/treeos-control.py:143-152 | the decision: rebase and report when a new release is named, otherwise only report that there is nothing new |
| UpdateOrchestrator.RunRebase | treeos-control/treeos-control.py:144-150 | exactly one rebase command; the log is announcement, output, then success or failure; the file is written only on exit code 0 |
| UpdateOrchestrator.UpdateController.StartManualUpdate | treeos-control/treeos-control.py:455-466 | with the lock present only "already running" is reported and nothing starts; otherwise the lock is taken, the details are cleared and the start is announced; no command is issued either way |
| UpdateOrchestrator.UpdateController.ProcessUpdate | treeos-control/treeos-control.py:471-479 | the upgrade (`apply_updates_py`) always runs and its exit code does not stop the rebase check; completion is reported unless the check raises; the lock is absent afterwards in both cases |
| Toolbox.HomeDir | treeos-control/treeos-control.py:156 | `expanduser` drops the trailing slashes of `$HOME` and nothing else |
| Toolbox.DesktopPath | treeos-control/treeos-control.py:156 | the entry's path is the home directory without its trailing slashes, then `/`, and ends with the application's `desktop_file` |
| Toolbox.JoinPath | treeos-control/treeos-control.py:627 | `os.path.join` ends with the file name, and an absolute name replaces the directory |
| Toolbox.InContainer | treeos-control/treeos-control.py:629 | a command run inside the container is `toolbox run --container treeossecure ` followed by the command |
| Toolbox.InstallCommand | treeos-control/treeos-control.py:624-646 | a key gets an installation command exactly when it is catalogued, and that command runs inside the container |
| Toolbox.SplitTerminated | treeos-control/treeos-control.py:157-166 | newline-terminated lines split at the newlines give the lines back |
| Toolbox.EntryParses | treeos-control/treeos-control.py:157-166 | the entry reads back line by line as written, and its `Exec` line runs the package inside the container with `%F` |
| Toolbox.CatalogKeys | treeos-control/treeos-control.py:39-61 | `APPS_DESKTOP` offers exactly `pycharm`, `vscode` and `anaconda` |
| Toolbox.CatalogSingleLine | treeos-control/treeos-control.py:39-61 | no catalogued field spans more than one line |
| Toolbox.CatalogEntriesParse | treeos-control/treeos-control.py:154-168 | the `.desktop` entry of every catalogued application reads back as its eight lines |
| Toolbox.DesktopCommand | treeos-control/treeos-control.py:154-168 | the command echoes the application's entry into its `.desktop` path and then makes that same path executable |
| Toolbox.DistinctDesktopFiles | treeos-control/treeos-control.py:39-61 | different applications write different `.desktop` files |
| Toolbox.Ensured | treeos-control/treeos-control.py:180-196 | the container is created exactly when the listing succeeds without mentioning it and both the pull and the creation exit with 0; nothing more happens when the listing mentions it; the listing fails exactly when it exits non-zero, the pull fails exactly when the container is missing and the pull exits non-zero, and the creation fails exactly when the pull succeeded and the creation exits non-zero; a failure carries a non-zero exit code |
| Toolbox.Creation | treeos-control/treeos-control.py:186-190 | a missing container ends as created, pull failed or creation failed; a failed pull ends it with that pull's code and no creation, and after a successful pull the creation's exit code decides |
| Toolbox.EnsureCommands | treeos-control/treeos-control.py:181-190 | the listing always runs first; the pull runs exactly when the container was missing, and the creation exactly when the pull succeeded |
| Toolbox.EnsureMessages | treeos-control/treeos-control.py:180-196 | at most two lines; none exactly when the container was already there; the announcement of the creation comes first exactly when it was missing |
| Toolbox.CalledProcessErrorText | treeos-control/treeos-control.py:194-196 | the error text names the failed command and ends with its exit status, or signal number, and a full stop |
| Toolbox.EnsureReport | treeos-control/treeos-control.py:183-196 | the success line is reported exactly when the container was created, and a failure is reported as the last line instead of being raised |
| Toolbox.EnsureExistingIsNoOp | treeos-control/treeos-control.py:182 | when the listing mentions the container, nothing but the listing runs and nothing is reported, so a second call is a no-op |
| Toolbox.EnsureToolboxExists | treeos-control/treeos-control.py:173-196 | the outcome is the one the oracle's answers determine; the commands issued and the lines reported are those of that outcome, and nothing is reported without a callback |
| Toolbox.CreateContainer | treeos-control/treeos-control.py:182-193 | for a missing container: announce, pull, create only when the pull succeeded, and report the first failure or the success |
| Toolbox.CreateFromImage | treeos-control/treeos-control.py:190-193 | the creation step issues one command and reports its failure or the success |
| Toolbox.CheckContainer | treeos-control/treeos-control.py:619-622 | the details are cleared, the check is announced, and what the container check reports follows |
| Toolbox.InstallApp | treeos-control/treeos-control.py:648-655 | the installation and then the desktop-entry command run, whatever the installation's exit code, with their output and the three progress lines in order |
| Toolbox.InstallAppBackground | treeos-control/treeos-control.py:615-659 | the container check always runs first and its failure does not stop the installation; a catalogued key runs its installation and desktop-entry commands; any other key only gets the error line and runs neither |

## Left out

- The GTK interface is not modelled: windows, buttons, spinners, the completion image, `mostrar_imagen_completa` and `mostrar_secure_imagen_completa`. Every `GLib.idle_add` hand-off becomes a direct, in-order append to the shell's log.
- Threads are not modelled. `on_actualizar_sistema` and `procesar_actualizacion` run one after the other. The lock check and the lock creation are not atomic in the source, so no mutual exclusion between processes is claimed. The lock file's content (the process id) is not modelled.
- The timestamp prefix `append_details_text` puts on every line depends on the clock. The log holds the lines without it.
- The `print` output of `read_config` and `write_config` goes to the terminal and is not modelled.
- Real process execution is an oracle (`Shell.respond`). The model holds the output lines each command produces and its exit code. Shell quoting, `echo -e` escapes, `tee` and `chmod` are not interpreted: the `.desktop` command is modelled as the text it runs, and the entry's content is proved to read back as written.
- `sed` regular-expression and replacement semantics are not modelled. A `sed` call is modelled as its intended effect, `ConfigStore.SedLine`: a line beginning with `KEY=` becomes `KEY=val`. The round-trip lemmas assume values free of `|`, `&`, `\`, `'` and line breaks (`SafeValue`). A line feed in a value behaves differently in the two branches. In the create branch, the plain write gives the real file an extra line that the line-by-line model does not show. In the update branch, `sed` reads the bare line feed as the end of an unterminated `s` command, fails, and leaves the file unchanged. A carriage return, which Python's reader treats as the end of a line, adds a line in both branches.
- The `sed` commands of `write_config` are modelled by their effect on `ConfigFile`. They are not recorded in `Shell.issued`, and their exit codes are ignored, as in the source.
- Python's `int()` is restricted to an optional sign and ASCII digits: no underscores and no non-ASCII digits. `lower()` is ASCII-only.
- ConfigStore.ConfigFile.Write: `str(last_update_check)` raises `ValueError` for an integer of more than 4300 digits, after the earlier `sed` calls have run, or, in the create branch, after the first four lines (`AUTO_UPDATES_ENABLED` to `FIRST_BOOT`) have been written, which the closing `with` block leaves in the file. The model writes the digits instead. The round-trip lemmas require such an argument to be within the limit (`IntWritable`, part of `SafeUpdate`).
- Toolbox.CalledProcessErrorText: for a negative exit code the model always uses Python's "died with unknown signal N." wording. For a signal Python knows, the text names the signal instead, and that lookup is not modelled.
- `check_output("toolbox list")` captures standard output only. The listing's outcome in the model is that output.
- The reading of `latest-release` can fail (`ReleaseFile.Unreadable`). That is the only exception modelled in the update worker. Exceptions from launching processes or from reading the configuration file are not modelled.
- `abrir_terminal_toolbox` and the theme, wallpaper, manual and extension handlers are not modelled. The terminal handler calls `ensure_toolbox_exists()` without a callback; that case is `Toolbox.EnsureToolboxExists` with `deliver` false.
- `LOCK_FILE` is modelled as the flag `lockPresent` of `UpdateController`; its path is not.
- The two installer wizards (`treeosinstall.py`, `preinstall.py`) are not part of this model.

=== FILE: config.dfy ===
/**
 * The configuration store of the control panel: `DEFAULT_CONFIG`, the line
 * reader `read_config` and the writer `write_config`, whose update branch
 * rewrites lines with one `sed` call per supplied field.
 *
 * The file is `present` plus its `lines` (without line terminators); Python's
 * `getsize(...) > 0` is `lines != []`. The dictionary the reader fills always
 * holds the six known keys, each with the type the reader gives it, plus any
 * other key a line sets, as text; `Config` is that dictionary.
 */
module ConfigStore {
  import opened Wrappers
  import opened Text

  /** The six keys of `DEFAULT_CONFIG`. */
  datatype Key =
    | AutoUpdatesEnabled
    | CheckFrequency
    | ExtensionesHabilitadas
    | FirstBoot
    | LastUpdateCheck
    | StoredVersion

  /** How a key is spelt in the file. */
  function KeyName(k: Key): string {
    match k
    case AutoUpdatesEnabled => "AUTO_UPDATES_ENABLED"
    case CheckFrequency => "CHECK_FREQUENCY"
    case ExtensionesHabilitadas => "EXTENSIONES_HABILITADAS"
    case FirstBoot => "FIRST_BOOT"
    case LastUpdateCheck => "LAST_UPDATE_CHECK"
    case StoredVersion => "STORED_VERSION"
  }

  /** The known key a name spells, if any. */
  function KeyOf(name: string): (r: Option<Key>)
    ensures r.Some? ==> KeyName(r.value) == name
  {
    if name == "AUTO_UPDATES_ENABLED" then Some(AutoUpdatesEnabled)
    else if name == "CHECK_FREQUENCY" then Some(CheckFrequency)
    else if name == "EXTENSIONES_HABILITADAS" then Some(ExtensionesHabilitadas)
    else if name == "FIRST_BOOT" then Some(FirstBoot)
    else if name == "LAST_UPDATE_CHECK" then Some(LastUpdateCheck)
    else if name == "STORED_VERSION" then Some(StoredVersion)
    else None
  }

  lemma KeyOfName(k: Key)
    ensures KeyOf(KeyName(k)) == Some(k)
  {
  }

  /** The known names are made of capital letters and underscores. */
  predicate KeyShape(name: string) {
    name != [] && forall c | c in name :: 'A' <= c <= 'Z' || c == '_'
  }

  lemma KeyNameShape(k: Key)
    ensures KeyShape(KeyName(k))
  {
  }

  /** The three keys the reader turns into booleans. */
  predicate IsBoolKey(k: Key) {
    k == AutoUpdatesEnabled || k == ExtensionesHabilitadas || k == FirstBoot
  }

  datatype Value = BoolV(b: bool) | IntV(n: int) | StrV(s: string)

  /** The type the reader gives a known key's value: boolean, integer or text. */
  predicate Fits(k: Key, v: Value) {
    if IsBoolKey(k) then v.BoolV? else if k == LastUpdateCheck then v.IntV? else v.StrV?
  }

  /** The type the reader gives any key's value: unknown keys keep their text. */
  predicate TypeFits(name: string, v: Value) {
    match KeyOf(name)
    case Some(k) => Fits(k, v)
    case None => v.StrV?
  }

  /** The reader's dictionary: the six known keys, typed, and the text of any other key. */
  datatype Config = Config(
    autoUpdatesEnabled: bool,
    checkFrequency: string,
    extensionesHabilitadas: bool,
    firstBoot: bool,
    lastUpdateCheck: int,
    storedVersion: string,
    others: map<string, string>)

  /** `others` holds no known key: those live in their own fields. */
  predicate OthersUnknown(c: Config) {
    forall name | name in c.others :: KeyOf(name).None?
  }

  const DefaultConfig: Config := Config(true, "daily", false, true, 0, "", map[])

  /** The value of a known key. */
  function Field(c: Config, k: Key): (v: Value)
    ensures Fits(k, v)
  {
    match k
    case AutoUpdatesEnabled => BoolV(c.autoUpdatesEnabled)
    case CheckFrequency => StrV(c.checkFrequency)
    case ExtensionesHabilitadas => BoolV(c.extensionesHabilitadas)
    case FirstBoot => BoolV(c.firstBoot)
    case LastUpdateCheck => IntV(c.lastUpdateCheck)
    case StoredVersion => StrV(c.storedVersion)
  }

  /** `c` with the known key `k` set to `v`. */
  function WithField(c: Config, k: Key, v: Value): (r: Config)
    requires Fits(k, v)
    ensures r.others == c.others
  {
    match k
    case AutoUpdatesEnabled => c.(autoUpdatesEnabled := v.b)
    case CheckFrequency => c.(checkFrequency := v.s)
    case ExtensionesHabilitadas => c.(extensionesHabilitadas := v.b)
    case FirstBoot => c.(firstBoot := v.b)
    case LastUpdateCheck => c.(lastUpdateCheck := v.n)
    case StoredVersion => c.(storedVersion := v.s)
  }

  /** Setting a known key changes that key, to the value given, and no other. */
  lemma FieldWithField(c: Config, k: Key, v: Value, other: Key)
    requires Fits(k, v)
    ensures Field(WithField(c, k, v), other) == if other == k then v else Field(c, other)
  {
  }

  /** Two dictionaries that agree on the known keys and on the others are the same. */
  lemma FieldExtensional(c1: Config, c2: Config)
    requires forall k: Key :: Field(c1, k) == Field(c2, k)
    requires c1.others == c2.others
    ensures c1 == c2
  {
    assert Field(c1, AutoUpdatesEnabled) == Field(c2, AutoUpdatesEnabled);
    assert Field(c1, CheckFrequency) == Field(c2, CheckFrequency);
    assert Field(c1, ExtensionesHabilitadas) == Field(c2, ExtensionesHabilitadas);
    assert Field(c1, FirstBoot) == Field(c2, FirstBoot);
    assert Field(c1, LastUpdateCheck) == Field(c2, LastUpdateCheck);
    assert Field(c1, StoredVersion) == Field(c2, StoredVersion);
  }

  /** `config.get(name)`. */
  function Get(c: Config, name: string): Option<Value> {
    match KeyOf(name)
    case Some(k) => Some(Field(c, k))
    case None => if name in c.others then Some(StrV(c.others[name])) else None
  }

  /** `config[name] = v`, for a value of the type the reader gives that key. */
  function Set(c: Config, name: string, v: Value): (r: Config)
    requires TypeFits(name, v)
    ensures OthersUnknown(c) ==> OthersUnknown(r)
  {
    match KeyOf(name)
    case Some(k) => WithField(c, k, v)
    case None => c.(others := c.others[name := v.s])
  }

  /** Setting a key changes what that key reads as, and nothing else. */
  lemma SetGet(c: Config, name: string, v: Value, other: string)
    requires TypeFits(name, v)
    ensures Get(Set(c, name, v), other) == if other == name then Some(v) else Get(c, other)
  {
    if KeyOf(name).Some? && KeyOf(other).Some? {
      FieldWithField(c, KeyOf(name).value, v, KeyOf(other).value);
    }
  }

  /** Two dictionaries that agree on every key are the same dictionary. */
  lemma GetExtensional(c1: Config, c2: Config)
    requires OthersUnknown(c1) && OthersUnknown(c2)
    requires forall name :: Get(c1, name) == Get(c2, name)
    ensures c1 == c2
  {
    forall k: Key ensures Field(c1, k) == Field(c2, k) {
      KeyOfName(k);
      assert Get(c1, KeyName(k)) == Get(c2, KeyName(k));
    }
    forall name | name in c1.others || name in c2.others
      ensures name in c1.others && name in c2.others && c1.others[name] == c2.others[name]
    {
      assert Get(c1, name) == Get(c2, name);
    }
    assert c1.others == c2.others;
    FieldExtensional(c1, c2);
  }

  // ---------------------------------------------------------------------------
  // Reading
  // ---------------------------------------------------------------------------

  /**
   * One raw line as the reader sees it: stripped, ignored unless it contains
   * `=`, split at the first `=` into a stripped key and a stripped value.
   */
  function ParseLine(raw: string): (r: Option<(string, string)>)
    ensures r.Some? <==> '=' in Strip(raw)
    ensures r.Some? ==> '=' !in r.value.0
  {
    var line := Strip(raw);
    if line != [] && '=' in line then
      var eq := IndexOf(line, '=');
      var key := line[..eq];
      RStripSpaces(key);
      LStripSuffix(RStrip(key));
      assert forall c | c in Strip(key) :: c in key;
      Some((Strip(key), Strip(line[eq + 1..])))
    else None
  }

  /**
   * The reader splits at the first `=`: the key and the value are the
   * stripped texts before and after it.
   */
  lemma ParseLineSplitsAtFirst(raw: string)
    ensures ParseLine(raw).Some? ==>
      exists k, v :: Strip(raw) == k + "=" + v && '=' !in k && ParseLine(raw).value == (Strip(k), Strip(v))
  {
    var line := Strip(raw);
    if ParseLine(raw).Some? {
      var eq := IndexOf(line, '=');
      var k, v := line[..eq], line[eq + 1..];
      assert line == k + "=" + v;
      assert ParseLine(raw).value == (Strip(k), Strip(v));
    }
  }

  /**
   * The value a key takes from its text: the three boolean keys are true iff
   * the text lower-cases to "true", `LAST_UPDATE_CHECK` is `int(text)` (None:
   * the ValueError that makes the reader skip the line), any other key, known
   * or not, keeps the text.
   */
  function Interpret(name: string, text: string): (r: Option<Value>)
    ensures r.Some? ==> TypeFits(name, r.value)
    ensures r.None? <==> KeyOf(name) == Some(LastUpdateCheck) && ParseInt(text).None?
  {
    match KeyOf(name)
    case Some(k) =>
      if IsBoolKey(k) then Some(BoolV(Lower(text) == "true"))
      else if k == LastUpdateCheck then
        match ParseInt(text)
        case Some(n) => Some(IntV(n))
        case None => None
      else Some(StrV(text))
    case None => Some(StrV(text))
  }

  /** The key and value a line sets, or None when the reader skips the line. */
  function Setting(raw: string): (r: Option<(string, Value)>)
    ensures r.Some? ==> TypeFits(r.value.0, r.value.1)
  {
    match ParseLine(raw)
    case None => None
    case Some((name, text)) =>
      match Interpret(name, text)
      case None => None
      case Some(v) => Some((name, v))
  }

  /** One iteration of the reader's loop. */
  function ApplyLine(c: Config, raw: string): (r: Config)
    ensures OthersUnknown(c) ==> OthersUnknown(r)
  {
    match Setting(raw)
    case None => c
    case Some((name, v)) => Set(c, name, v)
  }

  /** The reader's loop over `lines`, starting from the dictionary `c`. */
  function ApplyLines(c: Config, lines: seq<string>): (r: Config)
    ensures OthersUnknown(c) ==> OthersUnknown(r)
    decreases lines
  {
    if lines == [] then c else ApplyLines(ApplyLine(c, lines[0]), lines[1..])
  }

  /** What `read_config` returns for a file with the given presence and lines. */
  function ConfigOf(present: bool, lines: seq<string>): (c: Config)
    ensures !present || lines == [] ==> c == DefaultConfig
    ensures OthersUnknown(c)
  {
    if present && lines != [] then ApplyLines(DefaultConfig, lines) else DefaultConfig
  }

  /** The value given to `name` by the last line of `lines` that sets it, if any. */
  function LastSetting(lines: seq<string>, name: string): Option<Value> {
    if lines == [] then None
    else
      var later := LastSetting(lines[1..], name);
      if later.Some? then later
      else match Setting(lines[0])
        case Some((n, v)) => if n == name then Some(v) else None
        case None => None
  }

  /**
   * The reader, key by key: a key reads as the value of the last line that
   * sets it (later lines override earlier ones, skipped lines count for
   * nothing) and otherwise as it did in the starting dictionary.
   */
  lemma {:induction false} ApplyLinesAt(c: Config, lines: seq<string>, name: string)
    ensures Get(ApplyLines(c, lines), name) ==
            if LastSetting(lines, name).Some? then LastSetting(lines, name) else Get(c, name)
    decreases lines
  {
    if lines != [] {
      ApplyLinesAt(ApplyLine(c, lines[0]), lines[1..], name);
      match Setting(lines[0])
      case None =>
      case Some((n, v)) => SetGet(c, n, v, name);
    }
  }

  /** Stripping `KEY=text` only strips the right end of `text`. */
  lemma StripKeyedLine(name: string, text: string)
    requires KeyShape(name)
    ensures Strip(name + "=" + text) == name + "=" + RStrip(text)
  {
    var prefix := name + "=";
    assert name + "=" + text == prefix + text;
    assert name[0] in name;
    RStripAppend(prefix, text);
    assert (prefix + RStrip(text))[0] == name[0];
  }

  /** The first `=` of `KEY=text` is the one after the key. */
  lemma KeyedLineEquals(name: string, rest: string)
    requires KeyShape(name)
    ensures IndexOf(name + "=" + rest, '=') == |name|
  {
    var line := name + "=" + rest;
    assert line[|name|] == '=';
    forall j | 0 <= j < |name| ensures line[j] != '=' {
      assert line[j] == name[j] && name[j] in name;
    }
  }

  /** A line `KEY=text` reads as that key with the stripped text. */
  lemma KeyedLineParses(name: string, text: string)
    requires KeyShape(name)
    ensures ParseLine(name + "=" + text) == Some((name, Strip(text)))
  {
    StripKeyedLine(name, text);
    var line := name + "=" + RStrip(text);
    KeyedLineEquals(name, RStrip(text));
    assert line[..|name|] == name;
    assert line[|name| + 1..] == RStrip(text);
    assert name[0] in name && name[|name| - 1] in name;
    StripOfTrimmed(name);
    RStripTwice(text);
  }

  lemma ApplyKeyedLine(c: Config, name: string, text: string, v: Value)
    requires KeyShape(name) && Interpret(name, Strip(text)) == Some(v)
    ensures ApplyLine(c, name + "=" + text) == Set(c, name, v)
  {
    KeyedLineParses(name, text);
  }

  // ---------------------------------------------------------------------------
  // Writing
  // ---------------------------------------------------------------------------

  /** The arguments of `write_config`; `None` leaves a field alone. */
  datatype Update = Update(
    autoUpdatesEnabled: Option<bool>,
    checkFrequency: Option<string>,
    extensionesHabilitadas: Option<bool>,
    firstBoot: Option<bool>,
    lastUpdateCheck: Option<int>,
    storedVersion: Option<string>)

  /** `str(b).lower()`. */
  function BoolText(b: bool): string {
    if b then "true" else "false"
  }

  /**
   * Text that survives both the line-per-setting file and the `sed` command
   * unchanged: no line break, no `sed` delimiter `|`, no `&` or `\` (special
   * in a replacement) and no `'` (the command is single-quoted).
   */
  predicate SafeValue(v: string) {
    forall i | 0 <= i < |v| :: v[i] !in {'|', '&', '\\', '\n', '\r', '\''}
  }

  /** An integer argument `str` converts without raising. */
  predicate IntWritable(n: Option<int>) {
    n.Some? ==> WithinDigitLimit(n.value)
  }

  /** Arguments the writer writes as intended: safe text and a convertible integer. */
  predicate SafeUpdate(u: Update) {
    (u.checkFrequency.Some? ==> SafeValue(u.checkFrequency.value))
    && (u.storedVersion.Some? ==> SafeValue(u.storedVersion.value))
    && IntWritable(u.lastUpdateCheck)
  }

  /** One field to write: the key and the text that goes after `KEY=`. */
  datatype Edit = Edit(key: Key, text: string)

  /** The line `KEY=text` that an edit stands for. */
  function EditLine(e: Edit): string {
    KeyName(e.key) + "=" + e.text
  }

  function EditLines(edits: seq<Edit>): seq<string> {
    seq(|edits|, i requires 0 <= i < |edits| => EditLine(edits[i]))
  }

  /** The edit for one argument, none when the argument is `None`. */
  function Arg(k: Key, text: Option<string>): seq<Edit> {
    if text.Some? then [Edit(k, text.value)] else []
  }

  function BoolArg(b: Option<bool>): Option<string> {
    if b.Some? then Some(BoolText(b.value)) else None
  }

  /** `str(n)` of an integer argument. */
  function IntArg(n: Option<int>): Option<string> {
    if n.Some? then Some(IntToString(n.value)) else None
  }

  /** The supplied arguments as edits, in the order `write_config` handles them. */
  function Edits(u: Update): seq<Edit> {
    Arg(AutoUpdatesEnabled, BoolArg(u.autoUpdatesEnabled))
    + (Arg(CheckFrequency, u.checkFrequency)
    + (Arg(ExtensionesHabilitadas, BoolArg(u.extensionesHabilitadas))
    + (Arg(FirstBoot, BoolArg(u.firstBoot))
    + (Arg(LastUpdateCheck, IntArg(u.lastUpdateCheck))
    + Arg(StoredVersion, u.storedVersion)))))
  }

  function KeysOf(edits: seq<Edit>): set<Key> {
    set e | e in edits :: e.key
  }

  function SuppliedKeys(u: Update): set<Key> {
    KeysOf(Edits(u))
  }

  /** Every argument supplied, a missing one taken from `DEFAULT_CONFIG`. */
  function Completed(u: Update): Update {
    Update(
      Some(u.autoUpdatesEnabled.GetOr(DefaultConfig.autoUpdatesEnabled)),
      Some(u.checkFrequency.GetOr(DefaultConfig.checkFrequency)),
      Some(u.extensionesHabilitadas.GetOr(DefaultConfig.extensionesHabilitadas)),
      Some(u.firstBoot.GetOr(DefaultConfig.firstBoot)),
      Some(u.lastUpdateCheck.GetOr(DefaultConfig.lastUpdateCheck)),
      Some(u.storedVersion.GetOr(DefaultConfig.storedVersion)))
  }

  /** The six keys in the order the create branch writes them. */
  const KeyOrder: seq<Key> := [AutoUpdatesEnabled, CheckFrequency, ExtensionesHabilitadas, FirstBoot, LastUpdateCheck, StoredVersion]

  /**
   * The lines written when the file is missing or empty: all six keys, in the
   * source's order, each with its supplied value or its default.
   */
  function CreationLines(u: Update): (r: seq<string>)
    ensures |r| == 6
    ensures forall i | 0 <= i < 6 :: KeyName(KeyOrder[i]) + "=" <= r[i]
  {
    var edits := Edits(Completed(u));
    assert |edits| == 6;
    assert forall i | 0 <= i < 6 :: edits[i].key == KeyOrder[i];
    EditLines(edits)
  }

  /** The writer without arguments. */
  const NoArguments := Update(None, None, None, None, None, None)

  /** The `sed` expression of `sed_replace`: substitute `^KEY=.*` by `KEY=val`. */
  function SedScript(key: string, val: string): string {
    "s|^" + key + "=.*|" + key + "=" + val + "|"
  }

  /**
   * With a safe value the `sed` expression has exactly the intended fields:
   * the command letter, the pattern `^KEY=.*` and the literal replacement
   * `KEY=val`. This is why the effect of the command is `SedApply`.
   */
  lemma SedScriptFields(key: string, val: string)
    requires KeyShape(key) && SafeValue(val)
    ensures Split(SedScript(key, val), '|') == ["s", "^" + key + "=.*", key + "=" + val, ""]
  {
    var pattern := "^" + key + "=.*";
    var replacement := key + "=" + val;
    assert '|' !in pattern by {
      assert forall i | 0 <= i < |key| :: pattern[i + 1] == key[i];
    }
    assert '|' !in replacement by {
      assert forall i | 0 <= i < |key| :: replacement[i] == key[i];
      assert forall i | 0 <= i < |val| :: replacement[|key| + 1 + i] == val[i];
    }
    assert SedScript(key, val) == "s" + ['|'] + (pattern + ['|'] + (replacement + ['|'] + ""));
    ThreeFields("s", pattern, replacement, '|');
  }

  /** Three separator-free fields, each closed by the separator, split into the three and a final empty field. */
  lemma ThreeFields(a: string, b: string, c: string, sep: char)
    requires sep !in a && sep !in b && sep !in c
    ensures Split(a + [sep] + (b + [sep] + (c + [sep] + "")), sep) == [a, b, c, ""]
  {
    TwoFields(b, c, sep);
    SplitField(a, sep, b + [sep] + (c + [sep] + ""));
    assert [a] + [b, c, ""] == [a, b, c, ""];
  }

  lemma TwoFields(b: string, c: string, sep: char)
    requires sep !in b && sep !in c
    ensures Split(b + [sep] + (c + [sep] + ""), sep) == [b, c, ""]
  {
    OneField(c, sep);
    SplitField(b, sep, c + [sep] + "");
    assert [b] + [c, ""] == [b, c, ""];
  }

  lemma OneField(c: string, sep: char)
    requires sep !in c
    ensures Split(c + [sep] + "", sep) == [c, ""]
  {
    SplitField(c, sep, "");
    assert Split("", sep) == [""];
  }

  /**
   * What `sed -i 's|^KEY=.*|KEY=val|'` does to one line: a line the pattern
   * does not match is kept, and a matched line still begins with `KEY=`.
   */
  function SedLine(line: string, key: string, val: string): (r: string)
    ensures key + "=" <= r <==> key + "=" <= line
    ensures !(key + "=" <= line) ==> r == line
  {
    if key + "=" <= line then key + "=" + val else line
  }

  /** What the `sed` command does to the file: a map over its lines, in place. */
  function SedApply(lines: seq<string>, key: string, val: string): (r: seq<string>)
    ensures |r| == |lines|
  {
    seq(|lines|, i requires 0 <= i < |lines| => SedLine(lines[i], key, val))
  }

  /** Running the same `sed` again changes nothing more. */
  lemma SedIdempotent(lines: seq<string>, key: string, val: string)
    ensures SedApply(SedApply(lines, key, val), key, val) == SedApply(lines, key, val)
  {
  }

  /** One `sed` per edit, in order. */
  function SedAll(lines: seq<string>, edits: seq<Edit>): seq<string>
    decreases |edits|
  {
    if edits == [] then lines
    else SedAll(SedApply(lines, KeyName(edits[0].key), edits[0].text), edits[1..])
  }

  /** The update branch: one `sed` per supplied field, in the order of the source. */
  function UpdateLines(lines: seq<string>, u: Update): seq<string> {
    SedAll(lines, Edits(u))
  }

  /** The lines of the file after `write_config(u)`. */
  function WriteLines(present: bool, lines: seq<string>, u: Update): seq<string> {
    if !present || lines == [] then CreationLines(u) else UpdateLines(lines, u)
  }

  /**
   * The configuration `c` with every supplied argument in place, as a read
   * sees it: booleans and the integer as given, strings stripped.
   */
  function Overlay(c: Config, u: Update): Config {
    c.(
      autoUpdatesEnabled := u.autoUpdatesEnabled.GetOr(c.autoUpdatesEnabled),
      checkFrequency := if u.checkFrequency.Some? then Strip(u.checkFrequency.value) else c.checkFrequency,
      extensionesHabilitadas := u.extensionesHabilitadas.GetOr(c.extensionesHabilitadas),
      firstBoot := u.firstBoot.GetOr(c.firstBoot),
      lastUpdateCheck := u.lastUpdateCheck.GetOr(c.lastUpdateCheck),
      storedVersion := if u.storedVersion.Some? then Strip(u.storedVersion.value) else c.storedVersion)
  }

  /** A line that sets a known key spells that key at its very start, followed by `=`: the shape `sed` can find. */
  predicate CanonicalLine(line: string) {
    match ParseLine(line)
    case Some((name, _)) => KeyOf(name).Some? ==> name + "=" <= line
    case None => true
  }

  predicate Canonical(lines: seq<string>) {
    forall i | 0 <= i < |lines| :: CanonicalLine(lines[i])
  }

  /** Some line begins with `key=`, i.e. the `sed` for `key` has a line to rewrite. */
  predicate HasLineFor(lines: seq<string>, key: Key) {
    exists i | 0 <= i < |lines| :: KeyName(key) + "=" <= lines[i]
  }

  /** No `sed` for a key in `keys` rewrites `line`. */
  predicate Untouched(line: string, keys: set<Key>) {
    forall k | k in keys :: !(KeyName(k) + "=" <= line)
  }

  /** The line of the edit reads back as a value of its key. */
  predicate Readable(e: Edit) {
    Interpret(KeyName(e.key), Strip(e.text)).Some?
  }

  // ---------------------------------------------------------------------------
  // Properties of the writer
  // ---------------------------------------------------------------------------

  /** `str(b).lower()` reads back as `b` under a boolean key. */
  lemma BoolTextReads(b: bool, k: Key)
    requires IsBoolKey(k)
    ensures Interpret(KeyName(k), Strip(BoolText(b))) == Some(BoolV(b))
  {
    KeyOfName(k);
    BoolTextPlain(b);
  }

  /** `str(b).lower()` has no surrounding whitespace and is already lower case. */
  lemma BoolTextPlain(b: bool)
    ensures Strip(BoolText(b)) == BoolText(b) && Lower(BoolText(b)) == BoolText(b)
  {
    StripOfTrimmed(BoolText(b));
    if b {
      assert Lower("true") == "true";
    } else {
      assert Lower("false") == "false";
    }
  }

  /** `str(n)` reads back as `n` under `LAST_UPDATE_CHECK`, and is safe to write. */
  lemma IntTextReads(n: int)
    requires WithinDigitLimit(n)
    ensures Interpret(KeyName(LastUpdateCheck), Strip(IntToString(n))) == Some(IntV(n))
    ensures SafeValue(IntToString(n))
  {
    KeyOfName(LastUpdateCheck);
    IntRoundTrip(n);
    IntTextSafe(n);
    var t := IntToString(n);
    StripOfTrimmed(t);
    assert ParseInt(t) == Some(n);
  }

  lemma IntTextSafe(n: int)
    ensures SafeValue(IntToString(n))
  {
    var t := IntToString(n);
    var digits := NatToString(if n < 0 then -n else n);
    assert forall i | 0 <= i < |t| :: t[i] == '-' || IsDigit(t[i]) by {
      if n < 0 {
        assert forall i | 1 <= i < |t| :: t[i] == digits[i - 1];
      }
    }
  }

  /** Under a string key a text reads back as itself, stripped. */
  lemma StringTextReads(t: string, k: Key)
    requires k == CheckFrequency || k == StoredVersion
    ensures Interpret(KeyName(k), Strip(t)) == Some(StrV(Strip(t)))
  {
    KeyOfName(k);
  }

  /** A line that begins with `key=` has `key` as its key, whatever follows. */
  lemma PrefixedLineKey(line: string, name: string)
    requires KeyShape(name) && name + "=" <= line
    ensures ParseLine(line).Some? && ParseLine(line).value.0 == name
  {
    var rest := line[|name| + 1..];
    assert line == name + "=" + rest;
    KeyedLineParses(name, rest);
  }

  /** Two known keys followed by `=` cannot both begin the same line unless they are the same key. */
  lemma PrefixKeysEqual(line: string, k1: Key, k2: Key)
    requires KeyName(k1) + "=" <= line && KeyName(k2) + "=" <= line
    ensures k1 == k2
  {
    KeyNameShape(k1);
    KeyNameShape(k2);
    PrefixedLineKey(line, KeyName(k1));
    PrefixedLineKey(line, KeyName(k2));
    KeyOfName(k1);
    KeyOfName(k2);
  }

  lemma SedApplyCons(lines: seq<string>, key: string, text: string)
    requires lines != []
    ensures SedApply(lines, key, text) == [SedLine(lines[0], key, text)] + SedApply(lines[1..], key, text)
  {
  }

  lemma HasLineForCons(lines: seq<string>, key: Key)
    requires lines != []
    ensures HasLineFor(lines, key) <==> KeyName(key) + "=" <= lines[0] || HasLineFor(lines[1..], key)
  {
    if HasLineFor(lines[1..], key) {
      var i :| 0 <= i < |lines[1..]| && KeyName(key) + "=" <= lines[1..][i];
      assert lines[i + 1] == lines[1..][i];
    }
    if HasLineFor(lines, key) && !(KeyName(key) + "=" <= lines[0]) {
      var i :| 0 <= i < |lines| && KeyName(key) + "=" <= lines[i];
      assert lines[1..][i - 1] == lines[i];
    }
  }

  lemma CanonicalCons(lines: seq<string>)
    requires lines != [] && Canonical(lines)
    ensures CanonicalLine(lines[0]) && Canonical(lines[1..])
  {
    forall i | 0 <= i < |lines[1..]| ensures CanonicalLine(lines[1..][i]) {
      assert lines[1..][i] == lines[i + 1];
    }
  }

  /** On a canonical file, a known key without a line of its own is set by no line at all. */
  lemma {:induction false} NoLineNoSetting(lines: seq<string>, key: Key)
    requires Canonical(lines) && !HasLineFor(lines, key)
    ensures LastSetting(lines, KeyName(key)).None?
  {
    if lines != [] {
      CanonicalCons(lines);
      HasLineForCons(lines, key);
      NoLineNoSetting(lines[1..], key);
      FirstLineKept(lines[0], key, "");
    }
  }

  /** A line the `sed` for `key` rewrites set `key` (or nothing) before, and sets `key` to the new value after. */
  lemma FirstLineRewritten(line: string, key: Key, text: string, v: Value)
    requires KeyName(key) + "=" <= line && Interpret(KeyName(key), Strip(text)) == Some(v)
    ensures Setting(SedLine(line, KeyName(key), text)) == Some((KeyName(key), v))
    ensures Setting(line).None? || Setting(line).value.0 == KeyName(key)
  {
    KeyNameShape(key);
    KeyedLineParses(KeyName(key), text);
    PrefixedLineKey(line, KeyName(key));
  }

  /** On a canonical line, the `sed` for `key` leaves alone a line that does not set `key`. */
  lemma FirstLineKept(line: string, key: Key, text: string)
    requires CanonicalLine(line) && !(KeyName(key) + "=" <= line)
    ensures SedLine(line, KeyName(key), text) == line
    ensures Setting(line).None? || Setting(line).value.0 != KeyName(key)
  {
    KeyOfName(key);
  }

  /**
   * The `sed` for `key`, key by key: `key` is afterwards set by the rewritten
   * lines when there was a line to rewrite, and every other key is set as before.
   */
  lemma {:induction false} SedLastSetting(lines: seq<string>, key: Key, text: string, v: Value, name: string)
    requires Canonical(lines) && Interpret(KeyName(key), Strip(text)) == Some(v)
    ensures LastSetting(SedApply(lines, KeyName(key), text), name) ==
            if name == KeyName(key) && HasLineFor(lines, key) then Some(v) else LastSetting(lines, name)
  {
    var after := SedApply(lines, KeyName(key), text);
    if lines == [] {
      assert after == [];
    } else {
      SedApplyCons(lines, KeyName(key), text);
      assert after[0] == SedLine(lines[0], KeyName(key), text);
      assert after[1..] == SedApply(lines[1..], KeyName(key), text);
      CanonicalCons(lines);
      HasLineForCons(lines, key);
      SedLastSetting(lines[1..], key, text, v, name);
      if KeyName(key) + "=" <= lines[0] {
        FirstLineRewritten(lines[0], key, text, v);
      } else {
        FirstLineKept(lines[0], key, text);
      }
      if name == KeyName(key) && !HasLineFor(lines[1..], key) {
        NoLineNoSetting(lines[1..], key);
      }
    }
  }

  /** One `sed` for a known key keeps the file canonical and its length, and rewrites only lines beginning with `key=`. */
  lemma SedFrame(lines: seq<string>, key: Key, text: string)
    requires Canonical(lines)
    ensures var after := SedApply(lines, KeyName(key), text);
            && |after| == |lines| && Canonical(after)
            && forall i | 0 <= i < |lines| && !(KeyName(key) + "=" <= lines[i]) :: after[i] == lines[i]
  {
    KeyNameShape(key);
    KeyOfName(key);
    KeyedLineParses(KeyName(key), text);
    var after := SedApply(lines, KeyName(key), text);
    forall i | 0 <= i < |after| ensures CanonicalLine(after[i]) {
      assert CanonicalLine(lines[i]);
    }
  }

  /** One `sed` neither adds nor removes the line of any known key. */
  lemma SedKeepsLines(lines: seq<string>, key: Key, text: string, k: Key)
    ensures HasLineFor(SedApply(lines, KeyName(key), text), k) <==> HasLineFor(lines, k)
  {
    if HasLineFor(lines, k) {
      SedKeepsLine(lines, key, text, k);
    }
    if HasLineFor(SedApply(lines, KeyName(key), text), k) {
      SedAddsNoLine(lines, key, text, k);
    }
  }

  lemma SedKeepsLine(lines: seq<string>, key: Key, text: string, k: Key)
    requires HasLineFor(lines, k)
    ensures HasLineFor(SedApply(lines, KeyName(key), text), k)
  {
    var after := SedApply(lines, KeyName(key), text);
    var i :| 0 <= i < |lines| && KeyName(k) + "=" <= lines[i];
    if KeyName(key) + "=" <= lines[i] {
      PrefixKeysEqual(lines[i], k, key);
    }
    assert KeyName(k) + "=" <= after[i];
  }

  lemma SedAddsNoLine(lines: seq<string>, key: Key, text: string, k: Key)
    requires HasLineFor(SedApply(lines, KeyName(key), text), k)
    ensures HasLineFor(lines, k)
  {
    var after := SedApply(lines, KeyName(key), text);
    var i :| 0 <= i < |after| && KeyName(k) + "=" <= after[i];
    if KeyName(key) + "=" <= lines[i] {
      PrefixKeysEqual(after[i], k, key);
    }
    assert KeyName(k) + "=" <= lines[i];
  }

  /** One `sed` for a key that has a line reads back as before with that key set to the new value. */
  lemma SedReadBack(c: Config, lines: seq<string>, key: Key, text: string, v: Value)
    requires OthersUnknown(c) && Canonical(lines) && Interpret(KeyName(key), Strip(text)) == Some(v)
    requires HasLineFor(lines, key)
    ensures ApplyLines(c, SedApply(lines, KeyName(key), text)) == Set(ApplyLines(c, lines), KeyName(key), v)
  {
    var a := ApplyLines(c, SedApply(lines, KeyName(key), text));
    var b := Set(ApplyLines(c, lines), KeyName(key), v);
    forall name ensures Get(a, name) == Get(b, name) {
      ApplyLinesAt(c, SedApply(lines, KeyName(key), text), name);
      ApplyLinesAt(c, lines, name);
      SedLastSetting(lines, key, text, v, name);
      SetGet(ApplyLines(c, lines), KeyName(key), v, name);
    }
    GetExtensional(a, b);
  }

  /** A `sed` whose key has no line leaves the file as it was: that update is lost. */
  lemma SedWithoutLine(lines: seq<string>, key: Key, text: string)
    requires !HasLineFor(lines, key)
    ensures SedApply(lines, KeyName(key), text) == lines
  {
    forall i | 0 <= i < |lines| ensures SedApply(lines, KeyName(key), text)[i] == lines[i] {
      assert !(KeyName(key) + "=" <= lines[i]);
    }
  }

  lemma {:induction false} ApplyLinesAppend(c: Config, a: seq<string>, b: seq<string>)
    ensures ApplyLines(c, a + b) == ApplyLines(ApplyLines(c, a), b)
    decreases a
  {
    if a == [] {
      assert a + b == b;
    } else {
      assert (a + b)[1..] == a[1..] + b;
      ApplyLinesAppend(ApplyLine(c, a[0]), a[1..], b);
    }
  }

  lemma ApplyLinesCons(c: Config, line: string, rest: seq<string>)
    ensures ApplyLines(c, [line] + rest) == ApplyLines(ApplyLine(c, line), rest)
  {
    assert ([line] + rest)[1..] == rest;
  }

  lemma EditLinesAppend(a: seq<Edit>, b: seq<Edit>)
    ensures EditLines(a + b) == EditLines(a) + EditLines(b)
  {
  }

  /** The line of a readable edit sets its key to the value its text reads as. */
  lemma ApplyEditLine(c: Config, e: Edit)
    requires Readable(e)
    ensures ApplyLine(c, EditLine(e)) == Set(c, KeyName(e.key), Interpret(KeyName(e.key), Strip(e.text)).value)
  {
    KeyNameShape(e.key);
    ApplyKeyedLine(c, KeyName(e.key), e.text, Interpret(KeyName(e.key), Strip(e.text)).value);
  }

  lemma BoolArgReadable(k: Key, b: Option<bool>)
    requires IsBoolKey(k)
    ensures forall e | e in Arg(k, BoolArg(b)) :: Readable(e)
  {
    BoolTextReads(b.GetOr(false), k);
  }

  lemma StringArgReadable(k: Key, t: Option<string>)
    requires k == CheckFrequency || k == StoredVersion
    ensures forall e | e in Arg(k, t) :: Readable(e)
  {
    StringTextReads(t.GetOr(""), k);
  }

  lemma IntArgReadable(n: Option<int>)
    requires IntWritable(n)
    ensures forall e | e in Arg(LastUpdateCheck, IntArg(n)) :: Readable(e)
  {
    if n.Some? {
      IntTextReads(n.value);
    }
  }

  /** Every edit `write_config` makes reads back: booleans, integers and text alike. */
  lemma EditsReadable(u: Update)
    requires IntWritable(u.lastUpdateCheck)
    ensures forall e | e in Edits(u) :: Readable(e)
  {
    BoolArgReadable(AutoUpdatesEnabled, u.autoUpdatesEnabled);
    StringArgReadable(CheckFrequency, u.checkFrequency);
    BoolArgReadable(ExtensionesHabilitadas, u.extensionesHabilitadas);
    BoolArgReadable(FirstBoot, u.firstBoot);
    IntArgReadable(u.lastUpdateCheck);
    StringArgReadable(StoredVersion, u.storedVersion);
  }

  lemma KeysOfAppend(a: seq<Edit>, b: seq<Edit>)
    ensures KeysOf(a + b) == KeysOf(a) + KeysOf(b)
  {
  }

  /** The keys of one argument's edits: its key when it is supplied, none otherwise. */
  lemma KeysOfArg(k: Key, text: Option<string>)
    ensures KeysOf(Arg(k, text)) == if text.Some? then {k} else {}
  {
    if text.Some? {
      assert Arg(k, text)[0].key == k;
    }
  }

  /** The keys of the last three arguments' edits. */
  lemma SuppliedTailKeys(u: Update)
    ensures KeysOf(Arg(FirstBoot, BoolArg(u.firstBoot)) + (Arg(LastUpdateCheck, IntArg(u.lastUpdateCheck)) + Arg(StoredVersion, u.storedVersion)))
            == (if u.firstBoot.Some? then {FirstBoot} else {})
            + ((if u.lastUpdateCheck.Some? then {LastUpdateCheck} else {})
            + (if u.storedVersion.Some? then {StoredVersion} else {}))
  {
    var a4 := Arg(FirstBoot, BoolArg(u.firstBoot));
    var a5 := Arg(LastUpdateCheck, IntArg(u.lastUpdateCheck));
    var a6 := Arg(StoredVersion, u.storedVersion);
    KeysOfArg(FirstBoot, BoolArg(u.firstBoot));
    KeysOfArg(LastUpdateCheck, IntArg(u.lastUpdateCheck));
    KeysOfArg(StoredVersion, u.storedVersion);
    KeysOfAppend(a5, a6);
    KeysOfAppend(a4, a5 + a6);
  }

  /** The keys `write_config` touches are exactly those whose argument is supplied. */
  lemma SuppliedKeysAre(u: Update)
    ensures SuppliedKeys(u) ==
            (if u.autoUpdatesEnabled.Some? then {AutoUpdatesEnabled} else {})
            + ((if u.checkFrequency.Some? then {CheckFrequency} else {})
            + ((if u.extensionesHabilitadas.Some? then {ExtensionesHabilitadas} else {})
            + ((if u.firstBoot.Some? then {FirstBoot} else {})
            + ((if u.lastUpdateCheck.Some? then {LastUpdateCheck} else {})
            + (if u.storedVersion.Some? then {StoredVersion} else {})))))
  {
    var a1 := Arg(AutoUpdatesEnabled, BoolArg(u.autoUpdatesEnabled));
    var a2 := Arg(CheckFrequency, u.checkFrequency);
    var a3 := Arg(ExtensionesHabilitadas, BoolArg(u.extensionesHabilitadas));
    var tail := Arg(FirstBoot, BoolArg(u.firstBoot)) + (Arg(LastUpdateCheck, IntArg(u.lastUpdateCheck)) + Arg(StoredVersion, u.storedVersion));
    SuppliedTailKeys(u);
    KeysOfArg(AutoUpdatesEnabled, BoolArg(u.autoUpdatesEnabled));
    KeysOfArg(CheckFrequency, u.checkFrequency);
    KeysOfArg(ExtensionesHabilitadas, BoolArg(u.extensionesHabilitadas));
    KeysOfAppend(a3, tail);
    KeysOfAppend(a2, a3 + tail);
    KeysOfAppend(a1, a2 + (a3 + tail));
  }

  /**
   * The `sed` commands of the update branch, read back: on a canonical file
   * with a line for every edited key, rewriting those lines in place reads
   * exactly as if the edit lines had been appended to the file, and the file
   * stays canonical.
   */
  lemma {:induction false} SedAllReads(c: Config, lines: seq<string>, edits: seq<Edit>)
    requires OthersUnknown(c) && Canonical(lines)
    requires forall e | e in edits :: Readable(e) && HasLineFor(lines, e.key)
    ensures ApplyLines(c, SedAll(lines, edits)) == ApplyLines(ApplyLines(c, lines), EditLines(edits))
    ensures Canonical(SedAll(lines, edits))
    decreases |edits|
  {
    if edits == [] {
      assert EditLines(edits) == [];
    } else {
      var e := edits[0];
      var next := SedApply(lines, KeyName(e.key), e.text);
      SedStep(c, lines, e);
      SedAllReads(c, next, edits[1..]);
      assert edits == [e] + edits[1..];
      EditLinesAppend([e], edits[1..]);
      ApplyLinesCons(ApplyLines(c, lines), EditLine(e), EditLines(edits[1..]));
    }
  }

  /** One step of `SedAllReads`: a single edit's `sed`, read back. */
  lemma SedStep(c: Config, lines: seq<string>, e: Edit)
    requires OthersUnknown(c) && Canonical(lines)
    requires Readable(e) && HasLineFor(lines, e.key)
    ensures var next := SedApply(lines, KeyName(e.key), e.text);
      && ApplyLines(c, next) == ApplyLine(ApplyLines(c, lines), EditLine(e))
      && Canonical(next)
      && forall k: Key :: HasLineFor(next, k) <==> HasLineFor(lines, k)
  {
    var v := Interpret(KeyName(e.key), Strip(e.text)).value;
    var next := SedApply(lines, KeyName(e.key), e.text);
    SedFrame(lines, e.key, e.text);
    forall k: Key ensures HasLineFor(next, k) <==> HasLineFor(lines, k) {
      SedKeepsLines(lines, e.key, e.text, k);
    }
    SedReadBack(c, lines, e.key, e.text, v);
    ApplyEditLine(ApplyLines(c, lines), e);
  }

  /**
   * Frame of the `sed` commands: the file keeps its length and its known
   * keys' lines, and every line no edit's key begins is kept as it was.
   */
  lemma {:induction false} SedAllFrame(lines: seq<string>, edits: seq<Edit>)
    ensures |SedAll(lines, edits)| == |lines|
    ensures forall i | 0 <= i < |lines| && Untouched(lines[i], KeysOf(edits)) :: SedAll(lines, edits)[i] == lines[i]
    ensures forall k: Key :: HasLineFor(SedAll(lines, edits), k) <==> HasLineFor(lines, k)
    decreases |edits|
  {
    if edits != [] {
      var e := edits[0];
      var next := SedApply(lines, KeyName(e.key), e.text);
      SedAllFrame(next, edits[1..]);
      forall k: Key ensures HasLineFor(next, k) <==> HasLineFor(lines, k) {
        SedKeepsLines(lines, e.key, e.text, k);
      }
      forall i | 0 <= i < |lines| && Untouched(lines[i], KeysOf(edits))
        ensures SedAll(lines, edits)[i] == lines[i]
      {
        assert e.key in KeysOf(edits);
        assert next[i] == lines[i];
        assert KeysOf(edits[1..]) <= KeysOf(edits) by {
          forall x | x in edits[1..] ensures x in edits { }
        }
      }
    }
  }

  lemma {:induction false} SedAllAppend(lines: seq<string>, a: seq<Edit>, b: seq<Edit>)
    ensures SedAll(lines, a + b) == SedAll(SedAll(lines, a), b)
    decreases |a|
  {
    if a == [] {
      assert a + b == b;
    } else {
      assert (a + b)[1..] == a[1..] + b;
      SedAllAppend(SedApply(lines, KeyName(a[0].key), a[0].text), a[1..], b);
    }
  }

  /** The first conditional `sed` of what is left of the update branch. */
  lemma SedAllPeel(lines: seq<string>, k: Key, text: Option<string>, rest: seq<Edit>)
    ensures SedAll(lines, Arg(k, text) + rest) ==
            SedAll(if text.Some? then SedApply(lines, KeyName(k), text.value) else lines, rest)
  {
    SedAllAppend(lines, Arg(k, text), rest);
    if text.Some? {
      assert Arg(k, text)[1..] == [];
    }
  }

  /** Writing a known key's own value back changes nothing. */
  lemma WithFieldSame(c: Config, k: Key)
    ensures WithField(c, k, Field(c, k)) == c
  {
  }

  /** Reading the line of one boolean argument. */
  lemma ReadBoolArg(c: Config, k: Key, b: Option<bool>)
    requires IsBoolKey(k)
    ensures ApplyLines(c, EditLines(Arg(k, BoolArg(b)))) == WithField(c, k, BoolV(b.GetOr(Field(c, k).b)))
  {
    if b.Some? {
      BoolTextReads(b.value, k);
      ApplyEditLine(c, Edit(k, BoolText(b.value)));
      KeyOfName(k);
      ApplyLinesCons(c, EditLine(Edit(k, BoolText(b.value))), []);
    } else {
      WithFieldSame(c, k);
    }
  }

  /** Reading the line of one text argument. */
  lemma ReadStringArg(c: Config, k: Key, t: Option<string>)
    requires k == CheckFrequency || k == StoredVersion
    ensures ApplyLines(c, EditLines(Arg(k, t))) == WithField(c, k, StrV(if t.Some? then Strip(t.value) else Field(c, k).s))
  {
    if t.Some? {
      StringTextReads(t.value, k);
      ApplyEditLine(c, Edit(k, t.value));
      KeyOfName(k);
      ApplyLinesCons(c, EditLine(Edit(k, t.value)), []);
    } else {
      WithFieldSame(c, k);
    }
  }

  /** Reading the line of the integer argument. */
  lemma ReadIntArg(c: Config, n: Option<int>)
    requires IntWritable(n)
    ensures ApplyLines(c, EditLines(Arg(LastUpdateCheck, IntArg(n)))) == c.(lastUpdateCheck := n.GetOr(c.lastUpdateCheck))
  {
    if n.Some? {
      IntTextReads(n.value);
      ApplyEditLine(c, Edit(LastUpdateCheck, IntToString(n.value)));
      KeyOfName(LastUpdateCheck);
      ApplyLinesCons(c, EditLine(Edit(LastUpdateCheck, IntToString(n.value))), []);
    }
  }

  lemma ReadAppend(c: Config, a: seq<Edit>, b: seq<Edit>)
    ensures ApplyLines(c, EditLines(a + b)) == ApplyLines(ApplyLines(c, EditLines(a)), EditLines(b))
  {
    EditLinesAppend(a, b);
    ApplyLinesAppend(c, EditLines(a), EditLines(b));
  }

  /**
   * Reading the lines of the supplied arguments after `c` puts exactly those
   * arguments in place: the meaning of an update, independently of how the
   * file is rewritten.
   */
  lemma ReadEdits(c: Config, u: Update)
    requires IntWritable(u.lastUpdateCheck)
    ensures ApplyLines(c, EditLines(Edits(u))) == Overlay(c, u)
  {
    var a1 := Arg(AutoUpdatesEnabled, BoolArg(u.autoUpdatesEnabled));
    var a2 := Arg(CheckFrequency, u.checkFrequency);
    var a3 := Arg(ExtensionesHabilitadas, BoolArg(u.extensionesHabilitadas));
    var tail := Arg(FirstBoot, BoolArg(u.firstBoot)) + (Arg(LastUpdateCheck, IntArg(u.lastUpdateCheck)) + Arg(StoredVersion, u.storedVersion));
    var c1 := ApplyLines(c, EditLines(a1));
    var c2 := ApplyLines(c1, EditLines(a2));
    var c3 := ApplyLines(c2, EditLines(a3));
    ReadAppend(c, a1, a2 + (a3 + tail));
    ReadAppend(c1, a2, a3 + tail);
    ReadAppend(c2, a3, tail);
    ReadBoolArg(c, AutoUpdatesEnabled, u.autoUpdatesEnabled);
    ReadStringArg(c1, CheckFrequency, u.checkFrequency);
    ReadBoolArg(c2, ExtensionesHabilitadas, u.extensionesHabilitadas);
    ReadTail(c3, u);
  }

  /** Reading the lines of the last three arguments. */
  lemma ReadTail(c: Config, u: Update)
    requires IntWritable(u.lastUpdateCheck)
    ensures ApplyLines(c, EditLines(Arg(FirstBoot, BoolArg(u.firstBoot)) + (Arg(LastUpdateCheck, IntArg(u.lastUpdateCheck)) + Arg(StoredVersion, u.storedVersion))))
            == c.(firstBoot := u.firstBoot.GetOr(c.firstBoot),
                  lastUpdateCheck := u.lastUpdateCheck.GetOr(c.lastUpdateCheck),
                  storedVersion := if u.storedVersion.Some? then Strip(u.storedVersion.value) else c.storedVersion)
  {
    var a4 := Arg(FirstBoot, BoolArg(u.firstBoot));
    var a5 := Arg(LastUpdateCheck, IntArg(u.lastUpdateCheck));
    var a6 := Arg(StoredVersion, u.storedVersion);
    var c4 := ApplyLines(c, EditLines(a4));
    var c5 := ApplyLines(c4, EditLines(a5));
    ReadAppend(c, a4, a5 + a6);
    ReadAppend(c4, a5, a6);
    ReadBoolArg(c, FirstBoot, u.firstBoot);
    ReadIntArg(c4, u.lastUpdateCheck);
    ReadStringArg(c5, StoredVersion, u.storedVersion);
  }

  /**
   * Update branch round trip: on a canonical file that has a line for every
   * supplied key, and with safe text values, reading after the update gives the previous configuration
   * with the supplied arguments in place, every other key unchanged; the
   * file stays canonical and no known key gains or loses its line.
   */
  lemma UpdateThenRead(lines: seq<string>, u: Update)
    requires lines != [] && Canonical(lines) && SafeUpdate(u)
    requires forall k | k in SuppliedKeys(u) :: HasLineFor(lines, k)
    ensures ConfigOf(true, UpdateLines(lines, u)) == Overlay(ConfigOf(true, lines), u)
    ensures Canonical(UpdateLines(lines, u))
    ensures forall k: Key :: HasLineFor(UpdateLines(lines, u), k) <==> HasLineFor(lines, k)
  {
    EditsReadable(u);
    assert forall e | e in Edits(u) :: e.key in SuppliedKeys(u);
    SedAllReads(DefaultConfig, lines, Edits(u));
    SedAllFrame(lines, Edits(u));
    ReadEdits(ApplyLines(DefaultConfig, lines), u);
  }

  /**
   * Update branch frame: the file keeps its length and every line that does
   * not begin with a supplied `KEY=` is kept as it was.
   */
  lemma UpdateFrame(lines: seq<string>, u: Update)
    ensures |UpdateLines(lines, u)| == |lines|
    ensures forall i | 0 <= i < |lines| && Untouched(lines[i], SuppliedKeys(u)) :: UpdateLines(lines, u)[i] == lines[i]
  {
    SedAllFrame(lines, Edits(u));
  }

  /** The lines of any edits are canonical, and there is a line for every edited key. */
  lemma EditLinesCanonical(edits: seq<Edit>)
    ensures Canonical(EditLines(edits))
    ensures forall e | e in edits :: HasLineFor(EditLines(edits), e.key)
  {
    var ls := EditLines(edits);
    forall i | 0 <= i < |edits| ensures CanonicalLine(ls[i]) {
      KeyNameShape(edits[i].key);
      KeyedLineParses(KeyName(edits[i].key), edits[i].text);
    }
    forall e | e in edits ensures HasLineFor(ls, e.key) {
      var i :| 0 <= i < |edits| && edits[i] == e;
      assert KeyName(e.key) + "=" <= ls[i];
    }
  }

  /** The created file is canonical and has a line for every known key. */
  lemma CreatedCanonical(u: Update)
    ensures Canonical(CreationLines(u))
    ensures forall k: Key :: HasLineFor(CreationLines(u), k)
  {
    var cu := Completed(u);
    var edits := Edits(cu);
    EditLinesCanonical(edits);
    forall k: Key ensures HasLineFor(CreationLines(u), k) {
      match k
      case AutoUpdatesEnabled =>
        assert Edit(k, BoolText(cu.autoUpdatesEnabled.value)) in edits;
      case CheckFrequency =>
        assert Edit(k, cu.checkFrequency.value) in edits;
      case ExtensionesHabilitadas =>
        assert Edit(k, BoolText(cu.extensionesHabilitadas.value)) in edits;
      case FirstBoot =>
        assert Edit(k, BoolText(cu.firstBoot.value)) in edits;
      case LastUpdateCheck =>
        assert Edit(k, IntToString(cu.lastUpdateCheck.value)) in edits;
      case StoredVersion =>
        assert Edit(k, cu.storedVersion.value) in edits;
    }
  }

  /**
   * Create branch round trip: with safe text values, reading the created
   * lines gives the defaults overlaid with the supplied arguments.
   */
  lemma CreateThenRead(u: Update)
    requires SafeUpdate(u)
    ensures ConfigOf(true, CreationLines(u)) == Overlay(DefaultConfig, u)
  {
    ReadEdits(DefaultConfig, Completed(u));
    assert |CreationLines(u)| == 6;
    StripOfTrimmed("daily");
    StripOfTrimmed("");
  }

  /**
   * `DEFAULT_CONFIG` survives its own file format: the six lines the writer
   * creates without arguments read back as the defaults.
   */
  lemma DefaultsReadBack()
    ensures ConfigOf(true, CreationLines(NoArguments)) == DefaultConfig
  {
    CreateThenRead(NoArguments);
  }

  /**
   * `write_config` followed by `read_config`: on a missing or empty file, or
   * on a canonical file with a line for every supplied key, the read gives
   * the configuration read before with the supplied arguments in place,
   * provided the values are safe (`SafeUpdate`). Afterwards the file is
   * canonical again, and a file that had a line for every key (as a created
   * one does) still has, so this holds write after write.
   */
  lemma WriteThenRead(present: bool, lines: seq<string>, u: Update)
    requires Canonical(lines) && SafeUpdate(u)
    requires present && lines != [] ==> forall k | k in SuppliedKeys(u) :: HasLineFor(lines, k)
    ensures ConfigOf(true, WriteLines(present, lines, u)) == Overlay(ConfigOf(present, lines), u)
    ensures Canonical(WriteLines(present, lines, u))
    ensures AllKeysKept(present, lines, u)
  {
    if !present || lines == [] {
      CreateThenRead(u);
      CreatedCanonical(u);
    } else {
      UpdateThenRead(lines, u);
    }
  }

  /**
   * The file's invariant: once written, it has a line for every
   * key. The create branch writes all six, and the update branch keeps the
   * keys that have a line.
   */
  predicate AllKeysKept(present: bool, lines: seq<string>, u: Update) {
    (!present || lines == [] || forall k: Key :: HasLineFor(lines, k))
      ==> forall k: Key :: HasLineFor(WriteLines(present, lines, u), k)
  }

  /** Every write keeps a line for every key, whatever the values. */
  lemma WriteKeepsKeys(present: bool, lines: seq<string>, u: Update)
    ensures AllKeysKept(present, lines, u)
  {
    if !present || lines == [] {
      CreatedCanonical(u);
    } else {
      SedAllFrame(lines, Edits(u));
    }
  }

  // ---------------------------------------------------------------------------
  // The file
  // ---------------------------------------------------------------------------

  /** The body of the reader's loop: one line read into the dictionary `c`. */
  method ReadLine(c: Config, raw: string) returns (r: Config)
    ensures r == ApplyLine(c, raw)
  {
    r := c;
    var line := Strip(raw);
    if '=' in line && line != [] {
      var eq := IndexOf(line, '=');
      var key, value := Strip(line[..eq]), Strip(line[eq + 1..]);
      assert ParseLine(raw) == Some((key, value));
      var known := KeyOf(key);
      if known.Some? && IsBoolKey(known.value) {
        r := Set(c, key, BoolV(Lower(value) == "true"));
      } else if known == Some(LastUpdateCheck) {
        match ParseInt(value)
        case Some(n) =>
          r := Set(c, key, IntV(n));
        case None =>
          // malformed integer: the source reports the line and goes on
      } else {
        r := Set(c, key, StrV(value));
      }
      assert Setting(raw) == if Interpret(key, value).Some? then Some((key, Interpret(key, value).value)) else None;
    } else {
      assert ParseLine(raw) == None;
    }
  }

  /** The configuration file: whether it exists and, when it does, its lines. */
  class ConfigFile {
    var present: bool
    var lines: seq<string>

    constructor (present: bool, lines: seq<string>)
      ensures this.present == present && this.lines == lines
    {
      this.present := present;
      this.lines := lines;
    }

    /** `read_config`: start from the defaults and apply the lines in order. */
    method Read() returns (c: Config)
      ensures c == ConfigOf(present, lines)
    {
      c := DefaultConfig;
      if present && |lines| > 0 {
        var i := 0;
        while i < |lines|
          invariant 0 <= i <= |lines|
          invariant ApplyLines(c, lines[i..]) == ApplyLines(DefaultConfig, lines)
        {
          assert lines[i..][1..] == lines[i + 1..];
          c := ReadLine(c, lines[i]);
          i := i + 1;
        }
        assert lines[i..] == [];
      }
    }

    /** One `sed_replace` command run on the file. */
    method RunSed(key: string, val: string)
      modifies this
      ensures present == old(present)
      ensures lines == SedApply(old(lines), key, val)
    {
      lines := SedApply(lines, key, val);
    }

    /**
     * `write_config`: a missing or empty file is created with six lines;
     * otherwise each supplied field is rewritten in place by its own `sed`.
     */
    method Write(u: Update)
      modifies this
      ensures present
      ensures lines == WriteLines(old(present), old(lines), u)
      ensures AllKeysKept(old(present), old(lines), u)
    {
      WriteKeepsKeys(present, lines, u);
      if !present || |lines| == 0 {
        lines := CreationLines(u);
        present := true;
        return;
      }
      ghost var r6 := Arg(StoredVersion, u.storedVersion);
      ghost var r5 := Arg(LastUpdateCheck, IntArg(u.lastUpdateCheck)) + r6;
      ghost var r4 := Arg(FirstBoot, BoolArg(u.firstBoot)) + r5;
      ghost var r3 := Arg(ExtensionesHabilitadas, BoolArg(u.extensionesHabilitadas)) + r4;
      ghost var r2 := Arg(CheckFrequency, u.checkFrequency) + r3;
      RunSedIfGiven(AutoUpdatesEnabled, BoolArg(u.autoUpdatesEnabled), r2);
      RunSedIfGiven(CheckFrequency, u.checkFrequency, r3);
      RunSedIfGiven(ExtensionesHabilitadas, BoolArg(u.extensionesHabilitadas), r4);
      RunSedIfGiven(FirstBoot, BoolArg(u.firstBoot), r5);
      RunSedIfGiven(LastUpdateCheck, IntArg(u.lastUpdateCheck), r6);
      assert r6 == r6 + [];
      RunSedIfGiven(StoredVersion, u.storedVersion, []);
    }

    /**
     * One `if value is not None: sed_replace(KEY, text)` step of the update
     * branch; `rest` stands for the steps still to come.
     */
    method RunSedIfGiven(k: Key, text: Option<string>, ghost rest: seq<Edit>)
      modifies this
      ensures present == old(present)
      ensures lines == SedAll(old(lines), Arg(k, text))
      ensures SedAll(lines, rest) == SedAll(old(lines), Arg(k, text) + rest)
    {
      SedAllPeel(lines, k, text, rest);
      SedAllPeel(lines, k, text, []);
      assert Arg(k, text) + [] == Arg(k, text);
      if text.Some? {
        RunSed(KeyName(k), text.value);
      }
    }
  }
}

=== FILE: runner.dfy ===
/**
 * External commands and the panel's message log.
 *
 * Every command the control panel runs is an oracle: the `n`-th command
 * issued gets the outcome `respond(command, n)`, made of the raw lines the
 * process writes (as `readline` returns them, newline included) and its exit
 * code. The shell records the commands in the order they are issued and the
 * lines handed to the panel's callback.
 */
module CommandRunner {
  import opened Text

  /** What a finished process produced: its raw output lines and its exit code. */
  datatype Outcome = Outcome(output: seq<string>, exitCode: int)

  /**
   * The lines the callback receives from `iter(process.stdout.readline, '')`:
   * every line read before the first empty read, stripped on the right.
   */
  function Delivered(raw: seq<string>): (r: seq<string>)
    ensures |r| <= |raw|
    ensures r == [] <==> raw == [] || raw[0] == ""
  {
    if raw == [] || raw[0] == "" then [] else [RStrip(raw[0])] + Delivered(raw[1..])
  }

  /**
   * The callback receives, in order and once each, the right-stripped lines
   * up to the first empty read, which ends the stream.
   */
  lemma {:induction false} DeliveredLines(raw: seq<string>)
    ensures |Delivered(raw)| <= |raw|
    ensures forall i | 0 <= i < |Delivered(raw)| :: raw[i] != "" && Delivered(raw)[i] == RStrip(raw[i])
    ensures |Delivered(raw)| < |raw| ==> raw[|Delivered(raw)|] == ""
  {
    if raw != [] && raw[0] != "" {
      DeliveredLines(raw[1..]);
    }
  }

  /** The terminated lines a process prints, `text + "\n"` each. */
  function Terminated(texts: seq<string>): seq<string> {
    seq(|texts|, i requires 0 <= i < |texts| => texts[i] + "\n")
  }

  /** A line of text with no trailing whitespace, so that `rstrip` gives it back. */
  predicate RightTrimmed(t: string) {
    t == [] || !IsSpace(t[|t| - 1])
  }

  /** `rstrip` removes the newline `readline` leaves on a line, and nothing of the line itself. */
  lemma RStripNewline(t: string)
    requires RightTrimmed(t)
    ensures RStrip(t + "\n") == t
  {
    if t == [] {
      assert t + "\n" == "\n";
    } else {
      RStripAppend(t, "\n");
    }
  }

  /**
   * Printed lines arrive as printed: the callback receives each line once, in
   * order, without its newline; an empty printed line arrives as "".
   */
  lemma {:induction false} DeliveredTerminated(texts: seq<string>)
    requires forall i | 0 <= i < |texts| :: RightTrimmed(texts[i])
    ensures Delivered(Terminated(texts)) == texts
  {
    if texts != [] {
      var raw := Terminated(texts);
      assert raw[0] == texts[0] + "\n";
      assert raw[1..] == Terminated(texts[1..]);
      RStripNewline(texts[0]);
      DeliveredTerminated(texts[1..]);
    }
  }

  /** The commands run so far and the lines shown in the panel's details view. */
  class Shell {
    /** The oracle: the outcome of the `n`-th command issued. */
    const respond: (string, nat) -> Outcome
    var issued: seq<string>
    var log: seq<string>

    constructor (respond: (string, nat) -> Outcome)
      ensures this.respond == respond && issued == [] && log == []
    {
      this.respond := respond;
      issued := [];
      log := [];
    }

    /** The outcome the next command issued would get. */
    function Next(cmd: string): Outcome
      reads this`issued
    {
      respond(cmd, |issued|)
    }

    /**
     * `ejecutar_comando_captura`: run `cmd`, hand each output line, stripped on
     * the right, to the callback (when there is one) as it is read, and return
     * the exit code.
     */
    method Capture(cmd: string, deliver: bool) returns (code: int)
      modifies this
      ensures issued == old(issued) + [cmd]
      ensures code == old(Next(cmd)).exitCode
      ensures log == old(log) + (if deliver then Delivered(old(Next(cmd)).output) else [])
    {
      var out := respond(cmd, |issued|);
      issued := issued + [cmd];
      var raw := out.output;
      var i := 0;
      while i < |raw| && raw[i] != ""
        invariant 0 <= i <= |raw|
        invariant issued == old(issued) + [cmd]
        invariant deliver ==> log + Delivered(raw[i..]) == old(log) + Delivered(raw)
        invariant !deliver ==> log == old(log)
      {
        assert raw[i..][1..] == raw[i + 1..];
        if deliver {
          log := log + [RStrip(raw[i])];
        }
        i := i + 1;
      }
      code := out.exitCode;
    }

    /** `subprocess.run(cmd, shell=True)`: run `cmd`; its output goes to the terminal, not to the panel. */
    method Run(cmd: string) returns (code: int)
      modifies this
      ensures issued == old(issued) + [cmd] && log == old(log)
      ensures code == old(Next(cmd)).exitCode
    {
      code := respond(cmd, |issued|).exitCode;
      issued := issued + [cmd];
    }

    /** `subprocess.check_output(cmd, shell=True, text=True)` before the exit check: run `cmd`, keep its output. */
    method Query(cmd: string) returns (out: Outcome)
      modifies this
      ensures issued == old(issued) + [cmd] && log == old(log)
      ensures out == old(Next(cmd))
    {
      out := respond(cmd, |issued|);
      issued := issued + [cmd];
    }

    /** The callback called with one message. */
    method Say(line: string)
      modifies this
      ensures issued == old(issued) && log == old(log) + [line]
    {
      log := log + [line];
    }

    /** Emptying the details view. */
    method Clear()
      modifies this
      ensures issued == old(issued) && log == []
    {
      log := [];
    }
  }
}

=== FILE: text.dfy ===
/**
 * The Python string operations the control panel relies on: `strip`, `rstrip`,
 * `lower`, `in`, the split point of `split("=", 1)`, `str(int)` and
 * `int(str)`, restated on `seq<char>`. `Split`, a split at every separator,
 * serves the lemmas that read texts back.
 */
module Text {
  import opened Wrappers

  /** The characters `str.isspace()` accepts, i.e. what `strip()` and `rstrip()` remove. */
  predicate IsSpace(c: char) {
    c == ' ' || ('\t' <= c <= '\r') || ('\U{1C}' <= c <= '\U{1F}')
    || c == '\U{85}' || c == '\U{A0}' || c == '\U{1680}' || ('\U{2000}' <= c <= '\U{200A}')
    || c == '\U{2028}' || c == '\U{2029}' || c == '\U{202F}' || c == '\U{205F}' || c == '\U{3000}'
  }

  /** True when `s` neither starts nor ends with whitespace. */
  predicate Trimmed(s: string) {
    s == [] || (!IsSpace(s[0]) && !IsSpace(s[|s| - 1]))
  }

  /** `s.rstrip()`: `s` without its trailing whitespace. */
  function RStrip(s: string): (r: string)
    ensures r <= s
  {
    if s == [] || !IsSpace(s[|s| - 1]) then s else RStrip(s[..|s| - 1])
  }

  /** What `rstrip` keeps does not end in whitespace, and all it removes is whitespace. */
  lemma {:induction false} RStripSpaces(s: string)
    ensures RStrip(s) == [] || !IsSpace(RStrip(s)[|RStrip(s)| - 1])
    ensures forall i | |RStrip(s)| <= i < |s| :: IsSpace(s[i])
    decreases |s|
  {
    if s != [] && IsSpace(s[|s| - 1]) {
      RStripSpaces(s[..|s| - 1]);
    }
  }

  /** `s.lstrip()`: `s` without its leading whitespace. */
  function LStrip(s: string): (r: string)
    ensures |r| <= |s|
  {
    if s == [] || !IsSpace(s[0]) then s else LStrip(s[1..])
  }

  /** What `lstrip` keeps is a suffix of `s`. */
  lemma {:induction false} LStripSuffix(s: string)
    ensures LStrip(s) == s[|s| - |LStrip(s)|..]
  {
    if s != [] && IsSpace(s[0]) {
      LStripSuffix(s[1..]);
    }
  }

  /** What `lstrip` keeps does not start with whitespace, and all it removes is whitespace. */
  lemma {:induction false} LStripSpaces(s: string)
    ensures LStrip(s) == [] || !IsSpace(LStrip(s)[0])
    ensures forall i | 0 <= i < |s| - |LStrip(s)| :: IsSpace(s[i])
  {
    if s != [] && IsSpace(s[0]) {
      LStripSpaces(s[1..]);
      LStripSuffix(s[1..]);
      assert forall i | 1 <= i < |s| - |LStrip(s)| :: s[i] == s[1..][i - 1];
    }
  }

  /**
   * `s.strip()`: `s` without its leading and trailing whitespace. What it
   * returns neither starts nor ends with whitespace.
   */
  function Strip(s: string): (l: string)
    ensures Trimmed(l)
  {
    var r := RStrip(s);
    RStripSpaces(s);
    LStripSpaces(r);
    LStripSuffix(r);
    var l := LStrip(r);
    assert l != [] ==> l[|l| - 1] == r[|r| - 1];
    l
  }

  /** `strip` leaves alone a string that neither starts nor ends with whitespace. */
  lemma StripOfTrimmed(s: string)
    requires Trimmed(s)
    ensures Strip(s) == s
  {
  }

  /**
   * `strip` removes whitespace only, and only at the ends: what it returns is
   * the slice of `s` starting at `i`, and every character around that slice
   * is whitespace.
   */
  lemma StripRemovesOnlySpace(s: string) returns (i: nat)
    ensures i + |Strip(s)| <= |s| && Strip(s) == s[i..i + |Strip(s)|]
    ensures forall k | 0 <= k < i :: IsSpace(s[k])
    ensures forall k | i + |Strip(s)| <= k < |s| :: IsSpace(s[k])
  {
    var r := RStrip(s);
    RStripSpaces(s);
    LStripSpaces(r);
    LStripSuffix(r);
    i := |r| - |Strip(s)|;
    assert r == s[..|r|];
    forall k | 0 <= k < i ensures IsSpace(s[k]) {
      assert s[k] == r[k];
    }
  }

  /** `rstrip` is idempotent. */
  lemma RStripTwice(s: string)
    ensures RStrip(RStrip(s)) == RStrip(s)
  {
    RStripSpaces(s);
  }

  /** Stripping the right end of `prefix + rest` stops inside `rest` when `prefix` ends in a non-space. */
  lemma {:induction false} RStripAppend(prefix: string, rest: string)
    requires prefix != [] && !IsSpace(prefix[|prefix| - 1])
    ensures RStrip(prefix + rest) == prefix + RStrip(rest)
    decreases |rest|
  {
    if rest == [] {
      assert prefix + rest == prefix;
    } else if IsSpace(rest[|rest| - 1]) {
      assert (prefix + rest)[..|prefix + rest| - 1] == prefix + rest[..|rest| - 1];
      RStripAppend(prefix, rest[..|rest| - 1]);
    } else {
    }
  }

  /** Python's `str.lower()` restricted to ASCII letters. */
  function LowerChar(c: char): char {
    if 'A' <= c <= 'Z' then (c as int + 32) as char else c
  }

  /** `s.lower()`: every ASCII capital becomes its small letter, and nothing else changes. */
  function Lower(s: string): (r: string)
    ensures |r| == |s|
    ensures forall i | 0 <= i < |s| :: !('A' <= r[i] <= 'Z') && (r[i] == s[i] || 'A' <= s[i] <= 'Z')
    ensures forall i | 0 <= i < |s| && 'A' <= s[i] <= 'Z' :: r[i] as int == s[i] as int + 32
  {
    seq(|s|, i requires 0 <= i < |s| => LowerChar(s[i]))
  }

  /**
   * The index of the first `c` in `s`, or `|s|` when there is none: the point
   * where `split("=", 1)` splits, and the witness of `c in s`.
   */
  function IndexOf(s: string, c: char): (r: nat)
    ensures r <= |s|
    ensures r < |s| <==> c in s
    ensures r < |s| ==> s[r] == c
    ensures forall j | 0 <= j < r :: s[j] != c
  {
    if s == [] then 0 else if s[0] == c then 0 else 1 + IndexOf(s[1..], c)
  }

  /** Python's substring test `pattern in text`. */
  function Contains(text: string, pattern: string): bool {
    if pattern <= text then true
    else if text == [] then false
    else Contains(text[1..], pattern)
  }

  /** `pattern in text` holds exactly when `pattern` starts at some position of `text`. */
  lemma {:induction false} ContainsAt(text: string, pattern: string)
    ensures Contains(text, pattern) <==> exists i | 0 <= i <= |text| :: pattern <= text[i..]
  {
    if pattern <= text {
      assert text[0..] == text;
    } else if text != [] {
      ContainsAt(text[1..], pattern);
      assert forall i | 1 <= i <= |text| :: text[i..] == text[1..][i - 1..];
    }
  }

  /** `"".join(parts)`. */
  function Concat(parts: seq<string>): string {
    if parts == [] then [] else parts[0] + Concat(parts[1..])
  }

  /** `s.split(sep)` for a one-character separator: always at least one field. */
  function Split(s: string, sep: char): (r: seq<string>)
    ensures |r| >= 1
  {
    if s == [] then [""]
    else
      var fields := Split(s[1..], sep);
      if s[0] == sep then [""] + fields else [[s[0]] + fields[0]] + fields[1..]
  }

  /** The first field of a split ends at the first separator. */
  lemma {:induction false} SplitField(field: string, sep: char, rest: string)
    requires sep !in field
    ensures Split(field + [sep] + rest, sep) == [field] + Split(rest, sep)
  {
    var s := field + [sep] + rest;
    if field == [] {
      assert s[1..] == rest;
    } else {
      assert s[1..] == field[1..] + [sep] + rest;
      SplitField(field[1..], sep, rest);
      assert [field[0]] + field[1..] == field;
    }
  }

  predicate IsDigit(c: char) {
    '0' <= c <= '9'
  }

  predicate AllDigits(s: string) {
    s != [] && forall i | 0 <= i < |s| :: IsDigit(s[i])
  }

  function DigitValue(c: char): nat
    requires IsDigit(c)
  {
    c as int - '0' as int
  }

  function DigitChar(d: nat): (c: char)
    requires d < 10
    ensures IsDigit(c) && DigitValue(c) == d
  {
    ('0' as int + d) as char
  }

  /** The value of a decimal numeral, most significant digit first. */
  function DigitsValue(s: string): nat
    requires forall i | 0 <= i < |s| :: IsDigit(s[i])
  {
    if s == [] then 0 else DigitsValue(s[..|s| - 1]) * 10 + DigitValue(s[|s| - 1])
  }

  /** `str(n)` for a natural number. */
  function NatToString(n: nat): (r: string)
    ensures AllDigits(r)
  {
    if n < 10 then [DigitChar(n)] else NatToString(n / 10) + [DigitChar(n % 10)]
  }

  /** `str(n)`: an optional minus sign followed by the decimal digits. */
  function IntToString(n: int): (r: string)
    ensures r != [] && (r[0] == '-' || IsDigit(r[0])) && IsDigit(r[|r| - 1])
  {
    if n < 0 then "-" + NatToString(-n) else NatToString(n)
  }

  /**
   * The most decimal digits `int()` and `str()` convert: from Python 3.11 on,
   * a longer conversion raises `ValueError` (`sys.get_int_max_str_digits()`,
   * 4300 unless changed).
   */
  const MaxStrDigits := 4300

  /** `str(n)` does not raise: `n` has at most `MaxStrDigits` decimal digits. */
  predicate WithinDigitLimit(n: int) {
    |NatToString(if n < 0 then -n else n)| <= MaxStrDigits
  }

  /**
   * `int(s)` on an already stripped string: an optional sign and at least one
   * ASCII digit, at most `MaxStrDigits` of them; anything else is the
   * `ValueError` case, here `None`.
   */
  function ParseInt(s: string): (r: Option<int>)
    ensures r.Some? ==> s != [] && IsDigit(s[|s| - 1]) && |s| <= MaxStrDigits + 1
    ensures AllDigits(s) && |s| > MaxStrDigits ==> r.None?
  {
    if s != [] && (s[0] == '+' || s[0] == '-') then
      if AllDigits(s[1..]) && |s| - 1 <= MaxStrDigits then
        var magnitude: int := DigitsValue(s[1..]);
        Some(if s[0] == '-' then -magnitude else magnitude)
      else None
    else if AllDigits(s) && |s| <= MaxStrDigits then Some(DigitsValue(s))
    else None
  }

  lemma {:induction false} NatToStringValue(n: nat)
    ensures DigitsValue(NatToString(n)) == n
  {
    if n >= 10 {
      NatToStringValue(n / 10);
      var s := NatToString(n);
      assert s[..|s| - 1] == NatToString(n / 10);
    }
  }

  /**
   * `int(str(n)) == n`: the decimal text written for an integer reads back as
   * that integer, for every integer `str` converts.
   */
  lemma IntRoundTrip(n: int)
    requires WithinDigitLimit(n)
    ensures ParseInt(IntToString(n)) == Some(n)
  {
    if n < 0 {
      NatToStringValue(-n);
      assert IntToString(n)[1..] == NatToString(-n);
    } else {
      NatToStringValue(n);
    }
  }
}

=== FILE: toolbox.dfy ===
/**
 * The secure-applications page: the catalogue of toolbox applications, the
 * `.desktop` entries written for them, making sure the `treeossecure`
 * container exists, and the installation worker.
 */
module Toolbox {
  import opened Text
  import opened CommandRunner

  /** One entry of `APPS_DESKTOP`: what to install and how to present it in the menu. */
  datatype AppInfo = AppInfo(package: string, desktopFile: string, name: string, comment: string, icon: string)

  // Long string constants are written as concatenations of short pieces, which
  // keeps the verifier's work on them small; the texts are the same.

  /** `APPS_DESKTOP`: the applications offered on the page, by key. */
  const Catalog: map<string, AppInfo> := map["pycharm" := PyCharm, "vscode" := VsCode, "anaconda" := Anaconda]

  const PyCharm := AppInfo("pycharm-community", "pycharm-toolbox" + ".desktop", "PyCharm (Toolbox)",
                           "IDE for Python " + "Development", "pycharm")
  const VsCode := AppInfo("code", "vscode-toolbox" + ".desktop", "VS Code (Toolbox)", "Code Editor", "code")
  const Anaconda := AppInfo("anaconda", "anaconda-toolbox" + ".desktop", "Anaconda (Toolbox)",
                            "Python Distribution", "anaconda")

  /** The container every application is installed into and run from. */
  const ContainerName := "treeossecure"

  /** The start of every command run inside the container. */
  const ContainerRun := "toolbox run " + "--container " + ContainerName + " "

  /** The installation script of Visual Studio Code, run by `bash -c` inside the container. */
  const VsCodeScript := "bash -c '\n" + "rpm --import " + "https://packages" + ".microsoft.com" + "/keys/microsoft.asc" + " &&\n"
    + "echo -e \"[code]\n" + "name=Visual " + "Studio Code\n" + "baseurl=" + "https://packages" + ".microsoft.com" + "/yumrepos/vscode\n"
    + "enabled=1\n" + "type=rpm-md\n" + "gpgcheck=1\n" + "gpgkey=" + "https://packages" + ".microsoft.com" + "/keys/microsoft.asc\""
    + " | tee " + "/etc/yum.repos.d" + "/vscode.repo" + " > /dev/null &&\n" + "dnf install -y code\n" + "'\n"

  const ListCommand := "toolbox list"
  const PullCommand := "podman pull " + "--quiet " + "registry." + "fedoraproject.org" + "/fedora-toolbox"
  const CreateCommand := "echo y | " + "toolbox create -c " + ContainerName + " --image " + "fedora-toolbox"

  const VerifyingMessage := "Verificando " + "contenedor " + "'treeossecure'..."
  const NotFoundMessage := "Contenedor " + "'treeossecure' " + "no encontrado. " + "Cre\U{E1}ndolo " + "autom\U{E1}ticamente..."
  const CreatedMessage := "Contenedor " + "'treeossecure' " + "creado exitosamente."
  const ErrorPrefix := "Error al " + "verificar/crear " + "contenedor: "
  const DesktopCreatedMessage := "Archivo .desktop " + "creado."
  const NoCommandMessage := "Error: no se " + "defini\U{F3} comando " + "para instalar " + "la app."

  function InstallingMessage(name: string): string {
    "Iniciando " + "instalaci\U{F3}n de " + name + "..."
  }

  function InstalledMessage(name: string): string {
    "Instalaci\U{F3}n de " + name + " completada."
  }

  /** No field of the entry spans more than one line. */
  predicate SingleLine(app: AppInfo) {
    '\n' !in app.package && '\n' !in app.desktopFile && '\n' !in app.name
    && '\n' !in app.comment && '\n' !in app.icon
  }

  /** The lines of the `.desktop` entry `crear_desktop_app` writes for `app`, without their newlines. */
  function EntryLines(app: AppInfo): seq<string> {
    ["[Desktop Entry]", "Name=" + app.name, "Comment=" + app.comment,
     "Exec=" + InContainer(app.package + " %F"), "Icon=" + app.icon,
     "Terminal=false", "Type=Application", "Categories=" + "Development;IDE;"]
  }

  /** The entry's text: each line followed by a newline. */
  function DesktopEntry(app: AppInfo): string {
    Concat(Terminated(EntryLines(app)))
  }

  /** `home.rstrip("/")`: `expanduser` drops the trailing slashes of the home directory. */
  function HomeDir(home: string): (r: string)
    ensures r <= home
    ensures r == [] || r[|r| - 1] != '/'
    ensures forall i | |r| <= i < |home| :: home[i] == '/'
  {
    if home == [] || home[|home| - 1] != '/' then home else HomeDir(home[..|home| - 1])
  }

  /**
   * `os.path.expanduser("~/.local/share/applications/<desktop_file>")` for a
   * user whose home directory (`$HOME`) is `home`.
   */
  function DesktopPath(home: string, app: AppInfo): (r: string)
    ensures HomeDir(home) + "/" <= r
    ensures |r| >= |app.desktopFile| && r[|r| - |app.desktopFile|..] == app.desktopFile
  {
    var r := HomeDir(home) + "/.local/share" + "/applications/" + app.desktopFile;
    assert r[|r| - |app.desktopFile|..] == app.desktopFile;
    r
  }

  /**
   * `crear_desktop_app(key)`: the shell command that writes the entry and
   * makes it executable. It echoes the application's entry, and the file it
   * makes executable is the one the entry is written to.
   */
  function DesktopCommand(home: string, key: string): (r: string)
    requires key in Catalog
    ensures "echo -e \"" + DesktopEntry(Catalog[key]) + "\" | tee " + DesktopPath(home, Catalog[key]) <= r
    ensures var tail := " && chmod +x " + DesktopPath(home, Catalog[key]); |tail| <= |r| && r[|r| - |tail|..] == tail
  {
    var path := DesktopPath(home, Catalog[key]);
    var write := "echo -e \"" + DesktopEntry(Catalog[key]) + "\" | tee " + path;
    var tail := " && chmod +x " + path;
    assert (write + tail)[|write|..] == tail;
    write + tail
  }

  /** `os.path.join(dir, name)`: `name` alone when it is absolute, otherwise joined with one separator. */
  function JoinPath(dir: string, name: string): (r: string)
    ensures |r| >= |name| && r[|r| - |name|..] == name
    ensures name != [] && name[0] == '/' ==> r == name
  {
    if name != [] && name[0] == '/' then name
    else if dir == [] || dir[|dir| - 1] == '/' then
      assert (dir + name)[|dir|..] == name;
      dir + name
    else
      assert (dir + "/" + name)[|dir| + 1..] == name;
      dir + "/" + name
  }

  /** `cmd` run inside the container. */
  function InContainer(cmd: string): (r: string)
    ensures ContainerRun <= r && r[|ContainerRun|..] == cmd
  {
    var r := ContainerRun + cmd;
    assert r[|ContainerRun|..] == cmd;
    r
  }

  /**
   * The installation command `instalar_app_background` chooses for `key`;
   * `scriptDir` is the directory of the running program, where
   * `install_pycharm.sh` lives. Only catalogued keys get a command, and each
   * runs inside the container.
   */
  function InstallCommand(key: string, scriptDir: string): (r: string)
    ensures r != "" <==> key in Catalog
    ensures r != "" ==> ContainerRun <= r
  {
    if key == "pycharm" then InContainer("bash -c 'bash " + JoinPath(scriptDir, "install_pycharm.sh") + "'")
    else if key == "vscode" then InContainer(VsCodeScript)
    else if key == "anaconda" then InContainer("dnf install -y " + "anaconda")
    else ""
  }

  /** Splitting newline-terminated lines at the newlines gives the lines back, then the empty tail. */
  lemma {:induction false} SplitTerminated(lines: seq<string>)
    requires forall i | 0 <= i < |lines| :: '\n' !in lines[i]
    ensures Split(Concat(Terminated(lines)), '\n') == lines + [""]
  {
    if lines != [] {
      var rest := Concat(Terminated(lines[1..]));
      assert Terminated(lines)[1..] == Terminated(lines[1..]);
      assert Concat(Terminated(lines)) == lines[0] + ['\n'] + rest;
      SplitField(lines[0], '\n', rest);
      SplitTerminated(lines[1..]);
      assert [lines[0]] + (lines[1..] + [""]) == lines + [""];
    }
  }

  /**
   * The entry reads back line by line as written: a `[Desktop Entry]` header,
   * the application's name, comment and icon, and an `Exec` line running its
   * package inside the container.
   */
  lemma EntryParses(app: AppInfo)
    requires SingleLine(app)
    ensures Split(DesktopEntry(app), '\n') == EntryLines(app) + [""]
    ensures EntryLines(app)[3] == "Exec=" + ContainerRun + app.package + " %F"
  {
    var lines := EntryLines(app);
    var exec := app.package + " %F";
    assert '\n' !in ContainerRun && '\n' !in " %F";
    assert InContainer(exec) == ContainerRun + exec;
    assert lines[3] == "Exec=" + ContainerRun + exec;
    forall i | 0 <= i < |lines| ensures '\n' !in lines[i] {
    }
    SplitTerminated(lines);
  }

  /** No catalogued field spans more than one line. */
  lemma CatalogSingleLine()
    ensures SingleLine(PyCharm) && SingleLine(VsCode) && SingleLine(Anaconda)
  {
    PyCharmSingleLine();
    VsCodeSingleLine();
    AnacondaSingleLine();
  }

  lemma PyCharmSingleLine()
    ensures SingleLine(PyCharm)
  {
  }

  lemma VsCodeSingleLine()
    ensures SingleLine(VsCode)
  {
  }

  lemma AnacondaSingleLine()
    ensures SingleLine(Anaconda)
  {
  }

  /** The `.desktop` file of every catalogued application reads back as written. */
  lemma CatalogEntriesParse(key: string)
    requires key in Catalog
    ensures Split(DesktopEntry(Catalog[key]), '\n') == EntryLines(Catalog[key]) + [""]
  {
    CatalogSingleLine();
    EntryParses(Catalog[key]);
  }

  /** `APPS_DESKTOP` offers exactly three applications. */
  lemma CatalogKeys()
    ensures Catalog.Keys == {"pycharm", "vscode", "anaconda"}
  {
  }

  /** Different applications write different `.desktop` files. */
  lemma DistinctDesktopFiles(home: string, k1: string, k2: string)
    requires k1 in Catalog && k2 in Catalog && k1 != k2
    ensures DesktopPath(home, Catalog[k1]) != DesktopPath(home, Catalog[k2])
  {
  }

  /**
   * The text of a `subprocess.CalledProcessError` for `cmd` failing with
   * `code`: it names the command and ends with the exit status, or the signal
   * number for a negative code, and a full stop.
   */
  function CalledProcessErrorText(cmd: string, code: int): (t: string)
    ensures "Command '" + cmd + "' " <= t
    ensures var n := IntToString(if code < 0 then -code else code);
      |n| + 1 <= |t| && t[|t| - 1 - |n|..] == n + "."
  {
    var head := "Command '" + cmd + "' ";
    var n := IntToString(if code < 0 then -code else code);
    var middle := if code < 0 then "died with " + "unknown signal " else "returned " + "non-zero exit " + "status ";
    assert (head + middle + n + ".")[|head + middle|..] == n + ".";
    head + middle + n + "."
  }

  /** How `ensure_toolbox_exists` ended. */
  datatype EnsureResult =
    | AlreadyThere
    | Created
    | ListFailed(code: int)
    | PullFailed(code: int)
    | CreateFailed(code: int)
  {
    predicate Failed() {
      ListFailed? || PullFailed? || CreateFailed?
    }
  }

  /**
   * The end of `ensure_toolbox_exists`, given what `toolbox list` produced and
   * the exit codes the pull and the creation would have: a failing command
   * ends it, and the container is created only when the listing does not
   * mention it.
   */
  function Ensured(list: Outcome, pull: int, create: int): (r: EnsureResult)
    ensures r == Created <==>
      list.exitCode == 0 && !Contains(Concat(list.output), ContainerName) && pull == 0 && create == 0
    ensures r == AlreadyThere <==> list.exitCode == 0 && Contains(Concat(list.output), ContainerName)
    ensures r.ListFailed? <==> list.exitCode != 0
    ensures r.PullFailed? <==> list.exitCode == 0 && !Contains(Concat(list.output), ContainerName) && pull != 0
    ensures r.CreateFailed? <==>
      list.exitCode == 0 && !Contains(Concat(list.output), ContainerName) && pull == 0 && create != 0
    ensures r.Failed() ==> r.code != 0
  {
    if list.exitCode != 0 then ListFailed(list.exitCode)
    else if Contains(Concat(list.output), ContainerName) then AlreadyThere
    else Creation(pull, create)
  }

  /** How the creation of a missing container ends, given the exit codes of the pull and the creation. */
  function Creation(pull: int, create: int): (r: EnsureResult)
    ensures r.PullFailed? || r.CreateFailed? || r == Created
    ensures pull != 0 ==> r == PullFailed(pull)
    ensures pull == 0 ==> r == if create != 0 then CreateFailed(create) else Created
  {
    if pull != 0 then PullFailed(pull)
    else if create != 0 then CreateFailed(create)
    else Created
  }

  /** The commands `ensure_toolbox_exists` ran before ending with `r`. */
  function EnsureCommands(r: EnsureResult): (cmds: seq<string>)
    ensures 1 <= |cmds| <= 3 && cmds[0] == ListCommand
    ensures |cmds| >= 2 <==> r.PullFailed? || r.CreateFailed? || r == Created
    ensures |cmds| == 3 <==> r.CreateFailed? || r == Created
    ensures |cmds| >= 2 ==> cmds[1] == PullCommand
    ensures |cmds| == 3 ==> cmds[2] == CreateCommand
  {
    match r
    case AlreadyThere => [ListCommand]
    case ListFailed(_) => [ListCommand]
    case PullFailed(_) => [ListCommand, PullCommand]
    case _ => [ListCommand, PullCommand, CreateCommand]
  }

  /** The callback line reporting a failed command. */
  function ErrorLine(cmd: string, code: int): string {
    ErrorPrefix + CalledProcessErrorText(cmd, code)
  }

  /**
   * The lines `ensure_toolbox_exists` hands to its callback before ending with
   * `r`: nothing for a container already there, and the announcement of the
   * creation first exactly when the container was missing.
   */
  function EnsureMessages(r: EnsureResult): (m: seq<string>)
    ensures |m| <= 2
    ensures m == [] <==> r == AlreadyThere
    ensures m != [] && m[0] == NotFoundMessage <==> r.PullFailed? || r.CreateFailed? || r == Created
  {
    assert NotFoundMessage[0] != ErrorPrefix[0];
    match r
    case AlreadyThere => []
    case Created => [NotFoundMessage, CreatedMessage]
    case ListFailed(code) => [ErrorLine(ListCommand, code)]
    case PullFailed(code) => [NotFoundMessage, ErrorLine(PullCommand, code)]
    case CreateFailed(code) => [NotFoundMessage, ErrorLine(CreateCommand, code)]
  }

  /**
   * The success line is reported exactly when both the pull and the creation
   * succeeded, and a failure is reported, as its last line, instead of raised.
   */
  lemma EnsureReport(r: EnsureResult)
    ensures CreatedMessage in EnsureMessages(r) <==> r == Created
    ensures r.Failed() ==> EnsureMessages(r) != [] && ErrorPrefix <= EnsureMessages(r)[|EnsureMessages(r)| - 1]
  {
    assert |CreatedMessage| < |NotFoundMessage|;
    forall cmd, code ensures |CreatedMessage| < |ErrorLine(cmd, code)| {
      assert |CalledProcessErrorText(cmd, code)| > 30;
    }
  }

  /**
   * Once the listing mentions the container, the check runs nothing but the
   * listing and reports nothing: calling it again after a creation is a no-op.
   */
  lemma EnsureExistingIsNoOp(list: Outcome, pull: int, create: int)
    requires list.exitCode == 0 && Contains(Concat(list.output), ContainerName)
    ensures EnsureCommands(Ensured(list, pull, create)) == [ListCommand]
    ensures EnsureMessages(Ensured(list, pull, create)) == []
  {
  }

  /** The outcome of `ensure_toolbox_exists` when the shell's next commands are the listing, the pull and the creation. */
  function EnsuredBy(shell: Shell): EnsureResult
    reads shell`issued
  {
    var n := |shell.issued|;
    Ensured(shell.respond(ListCommand, n), shell.respond(PullCommand, n + 1).exitCode,
            shell.respond(CreateCommand, n + 2).exitCode)
  }

  /**
   * `ensure_toolbox_exists(callback)`: list the toolboxes; when the container
   * is missing pull the image and create it, stopping at the first command
   * that fails; report failures to the callback instead of raising. With
   * `deliver` false there is no callback and nothing is reported.
   */
  method EnsureToolboxExists(shell: Shell, deliver: bool) returns (r: EnsureResult)
    modifies shell
    ensures r == old(EnsuredBy(shell))
    ensures shell.issued == old(shell.issued) + EnsureCommands(r)
    ensures shell.log == old(shell.log) + (if deliver then EnsureMessages(r) else [])
  {
    var listing := shell.Query(ListCommand);
    if listing.exitCode != 0 {
      r := ListFailed(listing.exitCode);
      if deliver {
        shell.Say(ErrorLine(ListCommand, listing.exitCode));
      }
    } else if Contains(Concat(listing.output), ContainerName) {
      r := AlreadyThere;
    } else {
      ghost var listed := shell.issued;
      r := CreateContainer(shell, deliver);
      assert shell.issued == listed + EnsureCommands(r)[1..];
    }
  }

  /**
   * The branch of `ensure_toolbox_exists` for a missing container: announce
   * it, pull the image, then create the container, stopping at the first
   * command that fails.
   */
  method CreateContainer(shell: Shell, deliver: bool) returns (r: EnsureResult)
    modifies shell
    ensures r == old(Creation(shell.Next(PullCommand).exitCode, shell.respond(CreateCommand, |shell.issued| + 1).exitCode))
    ensures shell.issued == old(shell.issued) + EnsureCommands(r)[1..]
    ensures shell.log == old(shell.log) + (if deliver then EnsureMessages(r) else [])
  {
    if deliver {
      shell.Say(NotFoundMessage);
    }
    var pulled := shell.Run(PullCommand);
    if pulled != 0 {
      r := PullFailed(pulled);
      if deliver {
        shell.Say(ErrorLine(PullCommand, pulled));
      }
    } else {
      r := CreateFromImage(shell, deliver);
    }
  }

  /** The last step of `CreateContainer`, once the image is pulled: create the container and report how that went. */
  method CreateFromImage(shell: Shell, deliver: bool) returns (r: EnsureResult)
    modifies shell
    ensures r == old(Creation(0, shell.Next(CreateCommand).exitCode))
    ensures shell.issued == old(shell.issued) + [CreateCommand]
    ensures shell.log == old(shell.log) + (if deliver then EnsureMessages(r)[1..] else [])
  {
    var created := shell.Run(CreateCommand);
    if created != 0 {
      r := CreateFailed(created);
      if deliver {
        shell.Say(ErrorLine(CreateCommand, created));
      }
    } else {
      r := Created;
      if deliver {
        shell.Say(CreatedMessage);
      }
    }
  }

  /**
   * `instalar_app_background(key)`: clear the details, make sure the
   * container exists (whatever that check reports, the installation goes
   * on), then for a catalogued key run its installation command and, whatever
   * its exit code, the command writing its `.desktop` entry; any other key
   * only gets an error line.
   */
  method InstallAppBackground(shell: Shell, key: string, home: string, scriptDir: string)
    modifies shell
    ensures key !in Catalog ==>
      && shell.issued == old(shell.issued) + EnsureCommands(old(EnsuredBy(shell)))
      && shell.log == ContainerReport(old(EnsuredBy(shell))) + [NoCommandMessage]
    ensures key in Catalog ==>
      shell.issued == old(shell.issued) + EnsureCommands(old(EnsuredBy(shell))) + [InstallCommand(key, scriptDir)] + [DesktopCommand(home, key)]
    ensures key in Catalog ==>
      var r := old(EnsuredBy(shell));
      var install := shell.respond(InstallCommand(key, scriptDir), |shell.issued| - 2);
      var desktop := shell.respond(DesktopCommand(home, key), |shell.issued| - 1);
      shell.log == ContainerReport(r) + [InstallingMessage(Catalog[key].name)] + Delivered(install.output)
                      + [InstalledMessage(Catalog[key].name)] + Delivered(desktop.output) + [DesktopCreatedMessage]
  {
    var r := CheckContainer(shell);
    var installCommand := InstallCommand(key, scriptDir);
    if installCommand != "" {
      InstallApp(shell, Catalog[key].name, installCommand, DesktopCommand(home, key));
    } else {
      shell.Say(NoCommandMessage);
    }
  }

  /** The lines the start of the installation shows: the announcement of the check, then what the check reports. */
  function ContainerReport(r: EnsureResult): seq<string> {
    [VerifyingMessage] + EnsureMessages(r)
  }

  /** The start of the installation: clear the details, announce the check and make sure the container exists. */
  method CheckContainer(shell: Shell) returns (r: EnsureResult)
    modifies shell
    ensures r == old(EnsuredBy(shell))
    ensures shell.issued == old(shell.issued) + EnsureCommands(r)
    ensures shell.log == ContainerReport(r)
  {
    shell.Clear();
    shell.Say(VerifyingMessage);
    assert shell.log == [VerifyingMessage];
    r := EnsureToolboxExists(shell, true);
  }

  /** The installation proper: announce, install, report, write the `.desktop` entry, report. */
  method InstallApp(shell: Shell, name: string, install: string, desktop: string)
    modifies shell
    ensures
      && shell.issued == old(shell.issued) + [install] + [desktop]
      && shell.log == old(shell.log) + [InstallingMessage(name)] + Delivered(shell.respond(install, |shell.issued| - 2).output)
                      + [InstalledMessage(name)] + Delivered(shell.respond(desktop, |shell.issued| - 1).output) + [DesktopCreatedMessage]
  {
    shell.Say(InstallingMessage(name));
    var _ := shell.Capture(install, true);
    shell.Say(InstalledMessage(name));
    var _ := shell.Capture(desktop, true);
    shell.Say(DesktopCreatedMessage);
  }
}

=== FILE: updates.dfy ===
/**
 * The manual update of the "Actualizaciones" page: the lock file that keeps
 * two updates from overlapping, `rpm-ostree upgrade`, and the rebase to the
 * release named in the `latest-release` file, recorded as `STORED_VERSION`
 * in the configuration file once it succeeds.
 */
module UpdateOrchestrator {
  import opened Wrappers
  import opened Text
  import opened ConfigStore
  import opened CommandRunner

  const UpgradeCommand := "rpm-ostree upgrade"

  function RebaseCommand(latest: string): string {
    "rpm-ostree rebase " + latest
  }

  const AlreadyRunningMessage := "\U{A1}Ya se est\U{E1} ejecutando una actualizaci\U{F3}n! Espere a que finalice."
  const StartingMessage := "Iniciando actualizaci\U{F3}n manual..."
  const DoneMessage := "Actualizaci\U{F3}n manual completada."
  const NoNewVersionMessage := "No hay nuevas versiones de Silverblue disponibles."

  function ApplyingMessage(latest: string): string {
    "Aplicando rebase a la versi\U{F3}n: " + latest
  }

  function RebasedMessage(latest: string): string {
    "Rebase completado a la versi\U{F3}n: " + latest
  }

  function RebaseFailedMessage(latest: string): string {
    "Error al aplicar rebase a " + latest + "."
  }

  /** The `latest-release` file: absent, readable with some text, or present but unreadable (`open` raises). */
  datatype ReleaseFile = Missing | Present(text: string) | Unreadable

  /** The release to rebase to: the file's text stripped, or "" when the file is absent. */
  function LatestVersion(f: ReleaseFile): (r: string)
    requires !f.Unreadable?
    ensures Trimmed(r)
    ensures f.Missing? ==> r == ""
  {
    match f
    case Missing => ""
    case Present(text) => Strip(text)
  }

  /** The rebase decision: a release is named and it is not the one recorded. */
  predicate NeedsRebase(latest: string, stored: string) {
    latest != "" && latest != stored
  }

  /** `write_config(stored_version=latest)`: only `STORED_VERSION` supplied. */
  function StoreVersion(latest: string): (u: Update)
    ensures SuppliedKeys(u) == {StoredVersion}
  {
    var u := Update(None, None, None, None, None, Some(latest));
    SuppliedKeysAre(u);
    u
  }

  /** The commands the rebase check issues. */
  function RebaseCommands(latest: string, stored: string): (r: seq<string>)
    ensures |r| <= 1
    ensures r != [] <==> NeedsRebase(latest, stored)
    ensures r != [] ==> r == [RebaseCommand(latest)]
  {
    if NeedsRebase(latest, stored) then [RebaseCommand(latest)] else []
  }

  /** What the rebase check reports, given the outcome the rebase command would have. */
  function RebaseReport(latest: string, stored: string, rebase: Outcome): seq<string> {
    if NeedsRebase(latest, stored) then RebaseLog(latest, rebase) else [NoNewVersionMessage]
  }

  /** What running the rebase reports: the announcement, the command's output, then success or failure. */
  function RebaseLog(latest: string, rebase: Outcome): seq<string> {
    [ApplyingMessage(latest)] + Delivered(rebase.output)
    + [if rebase.exitCode == 0 then RebasedMessage(latest) else RebaseFailedMessage(latest)]
  }

  /** The recorded version changes exactly when a needed rebase exits with 0. */
  predicate Recorded(latest: string, stored: string, rebase: Outcome) {
    NeedsRebase(latest, stored) && rebase.exitCode == 0
  }

  /** The six lines `write_config(stored_version=latest)` creates in a missing or empty file. */
  function CreatedWithVersion(latest: string): seq<string> {
    [KeyName(AutoUpdatesEnabled) + "=" + "true", KeyName(CheckFrequency) + "=" + "daily",
     KeyName(ExtensionesHabilitadas) + "=" + "false", KeyName(FirstBoot) + "=" + "true",
     KeyName(LastUpdateCheck) + "=" + "0", KeyName(StoredVersion) + "=" + latest]
  }

  /**
   * The configuration file after `write_config(stored_version=latest)`: the
   * created file, or the existing lines with every `STORED_VERSION=` line
   * rewritten.
   */
  function RecordLines(present: bool, lines: seq<string>, latest: string): seq<string> {
    if !present || lines == [] then CreatedWithVersion(latest)
    else SedApply(lines, KeyName(StoredVersion), latest)
  }

  /** The lines the creating branch writes when only `STORED_VERSION` is supplied. */
  lemma CreatedWithVersionIsCreation(latest: string)
    ensures CreationLines(StoreVersion(latest)) == CreatedWithVersion(latest)
  {
    var edits := [Edit(AutoUpdatesEnabled, "true"), Edit(CheckFrequency, "daily"),
                  Edit(ExtensionesHabilitadas, "false"), Edit(FirstBoot, "true"),
                  Edit(LastUpdateCheck, "0"), Edit(StoredVersion, latest)];
    assert IntToString(0) == "0";
    assert Edits(Completed(StoreVersion(latest))) == edits;
  }

  /** `RecordLines` is what the general writer does with only `STORED_VERSION` supplied. */
  lemma RecordIsWrite(present: bool, lines: seq<string>, latest: string)
    ensures WriteLines(present, lines, StoreVersion(latest)) == RecordLines(present, lines, latest)
  {
    if !present || lines == [] {
      CreatedWithVersionIsCreation(latest);
    } else {
      SedAllPeel(lines, StoredVersion, Some(latest), []);
      assert Edits(StoreVersion(latest)) == Arg(StoredVersion, Some(latest)) + [];
    }
  }

  /**
   * After a successful rebase is recorded in a missing or empty file, or in a
   * canonical file that has a `STORED_VERSION` line, the configuration reads
   * back the new version, so a rerun with the same release rebases nothing.
   */
  lemma RerunAfterSuccessIsNoOp(present: bool, lines: seq<string>, latest: string)
    requires Canonical(lines) && Trimmed(latest) && SafeValue(latest)
    requires present && lines != [] ==> HasLineFor(lines, StoredVersion)
    ensures ConfigOf(true, RecordLines(present, lines, latest)).storedVersion == latest
    ensures !NeedsRebase(latest, ConfigOf(true, RecordLines(present, lines, latest)).storedVersion)
  {
    RecordIsWrite(present, lines, latest);
    WriteThenRead(present, lines, StoreVersion(latest));
    StripOfTrimmed(latest);
  }

  /**
   * A non-empty file with no `STORED_VERSION` line is left as it was by the
   * recording `sed`, so the version is never recorded and every later run
   * rebases again.
   */
  lemma LostStoredVersion(lines: seq<string>, latest: string)
    requires lines != [] && !HasLineFor(lines, StoredVersion)
    ensures RecordLines(true, lines, latest) == lines
    ensures ConfigOf(true, RecordLines(true, lines, latest)).storedVersion == ConfigOf(true, lines).storedVersion
  {
    SedWithoutLine(lines, StoredVersion, latest);
  }

  /** The call `write_config(stored_version=latest)` on the configuration file. */
  method RecordVersion(config: ConfigFile, latest: string)
    modifies config
    ensures config.present && config.lines == RecordLines(old(config.present), old(config.lines), latest)
  {
    RecordIsWrite(config.present, config.lines, latest);
    config.Write(StoreVersion(latest));
  }

  /**
   * `check_silverblue_version_py`: read the latest release and the recorded
   * version, then rebase when they differ. An unreadable release file raises
   * before anything runs.
   */
  method CheckSilverblueVersion(shell: Shell, config: ConfigFile, release: ReleaseFile) returns (raised: bool)
    modifies shell, config
    ensures raised <==> release.Unreadable?
    ensures raised ==> shell.issued == old(shell.issued) && shell.log == old(shell.log)
    ensures raised ==> config.present == old(config.present) && config.lines == old(config.lines)
    ensures !raised ==>
      var latest := LatestVersion(release);
      var stored := ConfigOf(old(config.present), old(config.lines)).storedVersion;
      var rebase := old(shell.Next(RebaseCommand(latest)));
      && shell.issued == old(shell.issued) + RebaseCommands(latest, stored)
      && shell.log == old(shell.log) + RebaseReport(latest, stored, rebase)
      && config.present == (Recorded(latest, stored, rebase) || old(config.present))
      && config.lines == if Recorded(latest, stored, rebase) then RecordLines(old(config.present), old(config.lines), latest) else old(config.lines)
  {
    if release.Unreadable? {
      return true;
    }
    raised := false;
    var latest := LatestVersion(release);
    var c := config.Read();
    RebaseIfNewer(shell, config, latest, c.storedVersion);
  }

  /**
   * The decision of `check_silverblue_version_py`: with a new release, run the
   * rebase; otherwise report that there is nothing new.
   */
  method RebaseIfNewer(shell: Shell, config: ConfigFile, latest: string, stored: string)
    modifies shell, config
    ensures
      var rebase := old(shell.Next(RebaseCommand(latest)));
      && shell.issued == old(shell.issued) + RebaseCommands(latest, stored)
      && shell.log == old(shell.log) + RebaseReport(latest, stored, rebase)
      && config.present == (Recorded(latest, stored, rebase) || old(config.present))
      && config.lines == if Recorded(latest, stored, rebase) then RecordLines(old(config.present), old(config.lines), latest) else old(config.lines)
  {
    if latest != "" && latest != stored {
      RunRebase(shell, config, latest);
    } else {
      shell.Say(NoNewVersionMessage);
    }
  }

  /**
   * The rebase branch of `check_silverblue_version_py`: announce the rebase,
   * run it reporting its output, and record the release only when it exits
   * with 0.
   */
  method RunRebase(shell: Shell, config: ConfigFile, latest: string)
    modifies shell, config
    ensures
      var rebase := old(shell.Next(RebaseCommand(latest)));
      && shell.issued == old(shell.issued) + [RebaseCommand(latest)]
      && shell.log == old(shell.log) + RebaseLog(latest, rebase)
      && config.present == (rebase.exitCode == 0 || old(config.present))
      && config.lines == if rebase.exitCode == 0 then RecordLines(old(config.present), old(config.lines), latest) else old(config.lines)
  {
    ghost var rebase := shell.Next(RebaseCommand(latest));
    ghost var shown := old(shell.log) + [ApplyingMessage(latest)] + Delivered(rebase.output);
    shell.Say(ApplyingMessage(latest));
    assert shell.Next(RebaseCommand(latest)) == rebase;
    var rcode := shell.Capture(RebaseCommand(latest), true);
    assert shell.log == shown;
    if rcode == 0 {
      shell.Say(RebasedMessage(latest));
      assert shell.log == shown + [RebasedMessage(latest)];
      RecordVersion(config, latest);
    } else {
      shell.Say(RebaseFailedMessage(latest));
      assert shell.log == shown + [RebaseFailedMessage(latest)];
    }
    assert shell.log == old(shell.log) + RebaseLog(latest, rebase);
  }

  /** The update page: whether the lock file exists, the shell and the configuration file. */
  class UpdateController {
    var lockPresent: bool
    const shell: Shell
    const config: ConfigFile

    constructor (shell: Shell, config: ConfigFile, lockPresent: bool)
      ensures this.shell == shell && this.config == config && this.lockPresent == lockPresent
    {
      this.shell := shell;
      this.config := config;
      this.lockPresent := lockPresent;
    }

    /**
     * `on_actualizar_sistema`: with the lock present only report that an
     * update is already running; otherwise take the lock, clear the details
     * and announce the update (the worker is then `ProcessUpdate`).
     */
    method StartManualUpdate() returns (started: bool)
      modifies this, shell
      ensures started <==> !old(lockPresent)
      ensures lockPresent
      ensures shell.issued == old(shell.issued)
      ensures shell.log == if started then [StartingMessage] else old(shell.log) + [AlreadyRunningMessage]
    {
      if lockPresent {
        shell.Say(AlreadyRunningMessage);
        return false;
      }
      lockPresent := true;
      shell.Clear();
      shell.Say(StartingMessage);
      started := true;
    }

    /**
     * `procesar_actualizacion`: upgrade, whatever its exit code then the
     * rebase check, then report completion; the lock is removed in every
     * case, also when the rebase check raises.
     */
    method ProcessUpdate(release: ReleaseFile) returns (raised: bool)
      modifies this, shell, config
      ensures !lockPresent
      ensures raised <==> release.Unreadable?
      ensures raised ==>
        && shell.issued == old(shell.issued) + [UpgradeCommand]
        && shell.log == old(shell.log) + Delivered(old(shell.Next(UpgradeCommand)).output)
        && config.present == old(config.present) && config.lines == old(config.lines)
      ensures !raised ==>
        var latest := LatestVersion(release);
        var stored := ConfigOf(old(config.present), old(config.lines)).storedVersion;
        var upgrade := old(shell.Next(UpgradeCommand));
        var rebase := shell.respond(RebaseCommand(latest), |old(shell.issued)| + 1);
        && shell.issued == old(shell.issued) + [UpgradeCommand] + RebaseCommands(latest, stored)
        && shell.log == old(shell.log) + Delivered(upgrade.output) + RebaseReport(latest, stored, rebase) + [DoneMessage]
        && config.present == (Recorded(latest, stored, rebase) || old(config.present))
        && config.lines == if Recorded(latest, stored, rebase) then RecordLines(old(config.present), old(config.lines), latest) else old(config.lines)
    {
      ghost var upgraded := old(shell.log) + Delivered(shell.Next(UpgradeCommand).output);
      ghost var n := |shell.issued| + 1;
      var _ := shell.Capture(UpgradeCommand, true);
      assert shell.log == upgraded;
      assert |shell.issued| == n;
      raised := CheckSilverblueVersion(shell, config, release);
      if !raised {
        ghost var checked := shell.log;
        shell.Say(DoneMessage);
        assert shell.log == checked + [DoneMessage];
      }
      lockPresent := false;
    }
  }
}

=== FILE: wrappers.dfy ===
/** The conventional optional value, used for Python's `None` results and defaults. */
module Wrappers {

  datatype Option<T> = None | Some(value: T) {

    /** The wrapped value, or `default` when there is none (Python's `x if x is not None else default`). */
    function GetOr(default: T): T {
      match this
      case Some(v) => v
      case None => default
    }
  }
}
